=== FILE: README.md ===
# ES-RNN ensemble bookkeeping — a Dafny model

This project models the discrete bookkeeping of the ensemble-of-specialists
variant of the ES-RNN forecaster (`ES_RNN_E.cc`). The neural networks and the
arithmetic of exponential smoothing are abstracted. What is modelled is the
structure around them:

- **Series preparation** (`series.dfy`, module `SeriesPrep`). A CSV line
  becomes an `M4TS` record:
  - the category becomes a one-hot vector, and an unknown category is an error;
  - observations are read up to the first empty field;
  - the backtesting holdback carves off `LBACK * OUTPUT_SIZE` points (an
    exact product; see "Left out") and keeps the first horizon of them as
    test values;
  - long series are truncated to their newest `MaxSeriesLength` points.

  The load loop strips punctuation from ids. It keeps only series whose
  usable length `n` reaches `MIN_SERIES_LENGTH`, and it stops after
  `MaxSeriesCount` kept series.
- **Seasonal index structure** (`seasonality.dfy`, module `Seasonality`).
  This covers the shape of the level/seasonality recurrence for single and
  double seasonality:
  - each seasonal sequence is seeded with P entries plus a duplicate of entry 0;
  - step t appends the entry for time t + P, computed from the entry at t;
  - when the horizon exceeds the period, the sequence is extended by repeating
    its last period.

  The update rules are abstract functions. The lemmas establish three things:
  - the recurrence equations themselves;
  - that the growing sequence is equivalent to a circular buffer of size P;
  - that every training, validation and reseasonalisation window the program
    reads lies within bounds.
- **Ranking** (`ranking.dfy`, module `Ranking`). `perfToRanking` turns
  per-network losses into the indices of the `TOPN` best networks. Ties go to
  the lower index.
- **Assignment of series to networks** (`assignment.dfy`, module
  `Assignment`). There are three steps:
  - the random initial assignment;
  - the per-epoch reassignment of every series to its `TOPN` best networks;
  - the repair that gives every network left empty `|series|/2` randomly
    drawn series.

  Random draws are supplied as sequences of choices.
- **Forecast history and ensemble averaging** (`forecasts.dfy`, module
  `Forecasts`). Each (series, network) pair has a ring of the last
  `AVERAGING_LEVEL` forecasts plus a mean slot. The final forecast of a
  series is the average of the mean slots of its `TOPN` best networks.
- **One epoch end** (`epoch.dfy`, module `Epoch`). This combines the steps
  above in program order:
  - it records the forecasts;
  - it reports top-N forecasts using the ranking computed in the *previous*
    epoch;
  - it then recomputes the rankings and reassigns and repairs.

`config.dfy` holds the constants of the active configuration block:
- five networks, top 4, averaging level 5;
- horizon 14, input window 7;
- minimum series length 23, six categories. The seasonal period is the
  length of the seed sequence handed to the recurrence.

`text.dfy` holds the generic sequence filter and the comma split/join used for
line parsing.

Floating-point values are modelled as `real`. Text-to-number conversion
(`atof`) is a parameter.

## Model

All source paths are `c++/windows_VisualStudio/ES_RNN_E/ES_RNN_E.cc`.

| member | source | states |
|---|---|---|
| SeriesPrep.ParseCategory | c++/windows_VisualStudio/ES_RNN_E/ES_RNN_E.cc:167-184 | A recognised category is exactly the one whose name was given; any other name is the unknown-category error carrying that name |
| SeriesPrep.ParseCategoryName | c++/windows_VisualStudio/ES_RNN_E/ES_RNN_E.cc:168-180 | Each of the six category names is recognised as its own category |
| SeriesPrep.OneHot | c++/windows_VisualStudio/ES_RNN_E/ES_RNN_E.cc:167-186 | The category vector has NUM_OF_CATEGORIES entries: 1 at the category's slot and 0 everywhere else |
| SeriesPrep.OneHotInjective | c++/windows_VisualStudio/ES_RNN_E/ES_RNN_E.cc:167-186 | Different categories give different indicator vectors |
| SeriesPrep.Clean | c++/windows_VisualStudio/ES_RNN_E/ES_RNN_E.cc:192-196 | A cleaned field contains no quote and no carriage return, and every other character occurs in it exactly as often as in the raw field |
| SeriesPrep.TakeFields | c++/windows_VisualStudio/ES_RNN_E/ES_RNN_E.cc:189-201 | The fields read are the cleaned fields in order, all non-empty, and reading stops exactly at the first field that is empty after cleaning |
| SeriesPrep.ParseValues | c++/windows_VisualStudio/ES_RNN_E/ES_RNN_E.cc:189-201 | One observation per field read, each the conversion of that cleaned field |
| SeriesPrep.Holdback | c++/windows_VisualStudio/ES_RNN_E/ES_RNN_E.cc:202-219 | For LBACK > 0 and a long enough series, the values split into usable prefix + OUTPUT_SIZE test values + (LBACK-1)*OUTPUT_SIZE dropped points, and n is the prefix length. For a too-short series n is 0 and nothing is removed. For LBACK <= 0 every point is usable |
| SeriesPrep.HoldbackScenario | c++/windows_VisualStudio/ES_RNN_E/ES_RNN_E.cc:202-213 | With 200 points and LBACK = 1, the test values are points 186..199 and the usable values are the first 186 |
| SeriesPrep.Truncate | c++/windows_VisualStudio/ES_RNN_E/ES_RNN_E.cc:220-224 | A series longer than MaxSeriesLength keeps exactly its newest MaxSeriesLength points, as a suffix; a shorter one is unchanged |
| SeriesPrep.MakeSeries | c++/windows_VisualStudio/ES_RNN_E/ES_RNN_E.cc:165-225 | Construction fails exactly when the category is unknown. On success: the categories are its one-hot vector, n lies between 0 and MaxSeriesLength, n is 0 or the number of kept values, and no more values are kept than were read |
| SeriesPrep.StripPunct | c++/windows_VisualStudio/ES_RNN_E/ES_RNN_E.cc:387-394 | A stripped id contains no punctuation character, and every other character occurs in it exactly as often as in the raw id |
| SeriesPrep.LoadSeriesKeepsQualifying | c++/windows_VisualStudio/ES_RNN_E/ES_RNN_E.cc:383-406 | If every line read before the cut has a known category, loading succeeds. The ids kept are the ids of the lines with n >= MIN_SERIES_LENGTH, in file order, cut at MaxSeriesCount when it is positive. The store is the fold of those (id, series) writes, and each kept id maps to the series of its last kept line. Every stored series has n >= MIN_SERIES_LENGTH |
| SeriesPrep.LoadFromStopsAtCut | c++/windows_VisualStudio/ES_RNN_E/ES_RNN_E.cc:404-405 | Once the lines read so far hold MaxSeriesCount qualifying series, the remaining lines are never read: loading the whole file equals loading that prefix |
| SeriesPrep.StoredLastWins | c++/windows_VisualStudio/ES_RNN_E/ES_RNN_E.cc:399-403 | After the writes `allSeries_map[series] = m4Obj`, an id maps to the series of its last write |
| SeriesPrep.StoredUntouched | c++/windows_VisualStudio/ES_RNN_E/ES_RNN_E.cc:399-403 | An id that no write mentions keeps its earlier presence and value in the map |
| SeriesPrep.LoadSeriesFailure | c++/windows_VisualStudio/ES_RNN_E/ES_RNN_E.cc:396-398 | A failed load is the unknown-category error of a line whose earlier lines all have known categories, i.e. the first unknown line; an unlisted id reads as the empty category |
| SeriesPrep.LoadSeriesFailsAt | c++/windows_VisualStudio/ES_RNN_E/ES_RNN_E.cc:383-406 | Conversely, a line with an unknown category whose earlier lines are all known, reached before MaxSeriesCount series are kept, makes the load fail with that line's category name. With LoadSeriesKeepsQualifying, a file loads exactly when no unknown category occurs before the cut |
| Text.JoinSplit | c++/windows_VisualStudio/ES_RNN_E/ES_RNN_E.cc:189-190 | Joining the comma-split pieces of a line with commas gives back the line |
| Text.SplitJoin | c++/windows_VisualStudio/ES_RNN_E/ES_RNN_E.cc:189-190 | Splitting comma-joined comma-free fields gives back the fields |
| Text.FilterAppend | c++/windows_VisualStudio/ES_RNN_E/ES_RNN_E.cc:387-394 | Removing characters from a concatenation is removing them from each part and concatenating, so the kept characters stay in their original order |
| Text.FilterIdempotent | c++/windows_VisualStudio/ES_RNN_E/ES_RNN_E.cc:387-394 | Removing characters a second time changes nothing |
| Seasonality.Grow | c++/windows_VisualStudio/ES_RNN_E/ES_RNN_E.cc:595-645 | The levels and seasonal sequence have the expected lengths. The sequence starts with the P seeds and a copy of seed 0. Level t is computed from the seasonal entry at t and level t-1. Seasonal entry P+t is computed from level t and the entry at t |
| Seasonality.RingMatchesGrowing | c++/windows_VisualStudio/ES_RNN_E/ES_RNN_E.cc:631-645 | A circular buffer of size P yields the same levels as the growing sequence, and after k steps it holds exactly the entries for times k..k+P-1 |
| Seasonality.ExtendOverHorizon | c++/windows_VisualStudio/ES_RNN_E/ES_RNN_E.cc:646-652 | When the horizon exceeds P, horizon-P entries are appended, each equal to the entry one period earlier, and the original sequence is left as its prefix. Otherwise nothing changes |
| Seasonality.SeasonalIndices | c++/windows_VisualStudio/ES_RNN_E/ES_RNN_E.cc:595-652 | The seasonal sequence of an m-point series has length m + max(horizon, P), satisfies the recurrence, and repeats with period P past the observed part |
| Seasonality.FinalWindowPeriodic | c++/windows_VisualStudio/ES_RNN_E/ES_RNN_E.cc:1183-1193 | The final forecast's seasonal window [m, m+H) lies inside the sequence and repeats with period P |
| Seasonality.WindowsInBounds | c++/windows_VisualStudio/ES_RNN_E/ES_RNN_E.cc:707-715 | For m >= H (every stored series has m >= MIN_SERIES_LENGTH > H), every input window for i in [INPUT_SIZE-1, m) and every label window for i below the unsigned bound m-H lies inside the observations and the seasonal sequence. So does the reseasonalisation window at i = m-1 |
| Seasonality.UnsignedSub | c++/windows_VisualStudio/ES_RNN_E/ES_RNN_E.cc:707 | The loop bound `m4Obj.n - OUTPUT_SIZE` is computed in unsigned 32-bit arithmetic: it equals n - H when n >= H and wraps to n - H + 2^32 when n < H |
| Seasonality.ShortSeriesOverruns | c++/windows_VisualStudio/ES_RNN_E/ES_RNN_E.cc:707-715 | For a series shorter than the horizon the wrapped bound lets the label loop reach i = m, whose label window runs past the observations; the load filter is what rules this case out |
| Seasonality.Grow2Equations | c++/windows_VisualStudio/ES_RNN_E/ES_RNN_E.cc:654-669 | Double seasonality: the level and both seasonal sequences satisfy the two-period recurrence. Each new entry reads its own sequence one period back and the other sequence at the same time |
| Seasonality.DoubleSeasonalIndices | c++/windows_VisualStudio/ES_RNN_E/ES_RNN_E.cc:671-684 | Each of the two sequences is the grown sequence extended over the horizon with its own period |
| Ranking.PerfToRanking | c++/windows_VisualStudio/ES_RNN_E/ES_RNN_E.cc:250-269 | Given at least TOPN losses below BIG_FLOAT, the result is a ranking: position k holds the untaken network with the smallest loss, ties going to the lower index |
| Ranking.RankingDistinct | c++/windows_VisualStudio/ES_RNN_E/ES_RNN_E.cc:256-266 | The ranked indices are valid network indices and pairwise distinct |
| Ranking.RankingOrdered | c++/windows_VisualStudio/ES_RNN_E/ES_RNN_E.cc:256-266 | Losses are non-decreasing along the ranking, and equal losses come in index order. Every unranked network has a loss at least as large as every ranked one |
| Ranking.RankingUnique | c++/windows_VisualStudio/ES_RNN_E/ES_RNN_E.cc:250-269 | The ranking of a loss vector is unique |
| Ranking.RankingOfEqualLosses | c++/windows_VisualStudio/ES_RNN_E/ES_RNN_E.cc:256-266 | When all losses are equal, the ranking is 0, 1, ..., TOPN-1 |
| Assignment.InitialAssignment | c++/windows_VisualStudio/ES_RNN_E/ES_RNN_E.cc:516-521 | The initial lists hold every series exactly NUM_OF_NETS/2 times in total, across the NUM_OF_NETS nets |
| Assignment.InitialAssignmentContents | c++/windows_VisualStudio/ES_RNN_E/ES_RNN_E.cc:516-521 | Net i receives, in order, the series of each pass whose drawn net is i, and nothing outside the series list |
| Assignment.Reassign | c++/windows_VisualStudio/ES_RNN_E/ES_RNN_E.cc:1320-1334 | After reassignment there are NUM_OF_NETS lists and TOPN * \|series\| entries in total |
| Assignment.ReassignContents | c++/windows_VisualStudio/ES_RNN_E/ES_RNN_E.cc:1322-1334 | Net i's list is the series, in order, whose ranking contains i |
| Assignment.ReassignMembership | c++/windows_VisualStudio/ES_RNN_E/ES_RNN_E.cc:1322-1334 | A series occurs in net i's list exactly as often as it occurs in the series list when i is among its top nets, and never otherwise |
| Assignment.NeededCount | c++/windows_VisualStudio/ES_RNN_E/ES_RNN_E.cc:1336-1348 | The repair draws \|series\|/2 times for each empty net |
| Assignment.RepairKeeps | c++/windows_VisualStudio/ES_RNN_E/ES_RNN_E.cc:1338-1339 | The repair leaves a non-empty list unchanged |
| Assignment.RepairFillsAt | c++/windows_VisualStudio/ES_RNN_E/ES_RNN_E.cc:1338-1346 | An empty net receives the series of the next \|series\|/2 draws, after those consumed by earlier empty nets |
| Assignment.RepairFills | c++/windows_VisualStudio/ES_RNN_E/ES_RNN_E.cc:1338-1346 | Every formerly empty net ends with \|series\|/2 entries, all from the series list |
| Assignment.RepairNonEmpty | c++/windows_VisualStudio/ES_RNN_E/ES_RNN_E.cc:1336-1348 | With at least two series, no net is empty after the repair |
| Assignment.SingleSeriesStaysEmpty | c++/windows_VisualStudio/ES_RNN_E/ES_RNN_E.cc:1336-1348 | With a single series, some net stays empty after reassignment and repair, because half of one is zero draws |
| Assignment.EpochAssignmentMembers | c++/windows_VisualStudio/ES_RNN_E/ES_RNN_E.cc:1320-1348 | Every entry after reassignment and repair is one of the series |
| Forecasts.Record | c++/windows_VisualStudio/ES_RNN_E/ES_RNN_E.cc:1213-1227 | Slot epoch % AVERAGING_LEVEL receives the new forecast and the other ring slots are unchanged. The mean slot becomes the average of the ring on averaging epochs and is otherwise unchanged |
| Forecasts.ReplaySlots | c++/windows_VisualStudio/ES_RNN_E/ES_RNN_E.cc:1213-1216 | After epochs 0..e, ring slot j holds the forecast of the latest epoch congruent to j mod AVERAGING_LEVEL, or is empty if there is none |
| Forecasts.ReplayMeanUnset | c++/windows_VisualStudio/ES_RNN_E/ES_RNN_E.cc:1218-1227 | Before epoch AVERAGING_LEVEL, the mean slot is never written |
| Forecasts.ReplayMean | c++/windows_VisualStudio/ES_RNN_E/ES_RNN_E.cc:1213-1227 | From epoch AVERAGING_LEVEL on, the mean slot is the average of the last AVERAGING_LEVEL forecasts in chronological order |
| Forecasts.AverageLoop | c++/windows_VisualStudio/ES_RNN_E/ES_RNN_E.cc:1218-1226 | The copy-then-accumulate-then-divide loop computes the element-wise average of the forecasts |
| Forecasts.AverageBounds | c++/windows_VisualStudio/ES_RNN_E/ES_RNN_E.cc:1218-1226 | Each component of an average lies between the bounds of the averaged components |
| Forecasts.AverageConsensus | c++/windows_VisualStudio/ES_RNN_E/ES_RNN_E.cc:1218-1226 | The average of identical forecasts is that forecast |
| Forecasts.AverageRotation | c++/windows_VisualStudio/ES_RNN_E/ES_RNN_E.cc:1218-1226 | Averaging does not depend on where the ring starts |
| Forecasts.TopNOfReplays | c++/windows_VisualStudio/ES_RNN_E/ES_RNN_E.cc:1249-1295 | The reported forecast of a series is the average, over its TOPN ranked nets, of each net's last AVERAGING_LEVEL forecasts |
| Forecasts.TopNWithinRange | c++/windows_VisualStudio/ES_RNN_E/ES_RNN_E.cc:1249-1295 | When all recorded forecasts lie within [lo, hi], so does every component of the reported forecast |
| Epoch.Start | c++/windows_VisualStudio/ES_RNN_E/ES_RNN_E.cc:413-521 | The starting state is ready for epoch 0: every ring is empty, no ranking and no final forecast exist, and the initial lists hold every series exactly NUM_OF_NETS/2 times across the networks |
| Epoch.RankAll | c++/windows_VisualStudio/ES_RNN_E/ES_RNN_E.cc:1322-1327 | Every series gets the well-formed ranking of its per-network losses |
| Epoch.RecordEpoch | c++/windows_VisualStudio/ES_RNN_E/ES_RNN_E.cc:1213-1296 | Every ring records the epoch's forecast and stays ready for the next epoch. On a reporting epoch, every ranked net's mean slot holds a forecast, and each final forecast is the top-N average under the rankings of the previous epoch; otherwise the finals are unchanged |
| Epoch.ReassignEpoch | c++/windows_VisualStudio/ES_RNN_E/ES_RNN_E.cc:1320-1348 | Every series gets the ranking of its losses. A net some series ranks keeps exactly those series, in file order; a net no series ranks is refilled with \|series\|/2 drawn entries. Every entry is a series, and no net is empty when there are at least two series |
| Epoch.EndOfEpoch | c++/windows_VisualStudio/ES_RNN_E/ES_RNN_E.cc:1213-1348 | Each ring records the epoch's forecast. On reporting epochs, each final forecast is the top-N average under the ranking from the previous epoch (read before the recompute); otherwise the finals are unchanged. The rankings are recomputed. A net some series ranks keeps exactly those series; a net no series ranks gets \|series\|/2 drawn entries. All entries are series, and none is empty when there are at least two series |

## Left out

- The networks (dilated/residual/attentive LSTM stacks), the numeric
  smoothing formulas, the losses and the optimisers are left out. They are
  floating-point computations through a tensor library; the seasonality
  model keeps only which entries each value is computed from.
- Floating point: values are reals, with no rounding and no NaN. `atof` is the
  parameter `toNumber`.
- File and console I/O, the category file, output files, timing and
  diagnostics (the avgLatest and best-loss printouts) are left out. The input
  file is given as its lines with the header already removed.
- Command-line parsing (`ParseArguments`) is left out. The `MaxSeriesLength`
  and `MaxSeriesCount` values arrive as parameters. The `argc == 2` branch is
  unreachable.
- SeriesPrep.StripPunct: the source applies C `ispunct` to `char` bytes in
  the C locale. The model classifies Dafny characters and treats only the 32
  printable ASCII punctuation characters as punctuation; every non-ASCII
  character is kept, whereas in C a byte of a multi-byte character is
  passed to `ispunct` as a negative value, which is undefined behaviour.
- SeriesPrep.Truncate: requires a non-negative `MaxSeriesLength`; negative
  values are excluded entirely. In the source a negative value always
  passes the `n > MaxSeriesLength` test. When every point is usable
  (LBACK <= 0, or the holdback succeeded, so n == |vals|), the erase runs
  past the end of the vector, which is undefined behaviour. The erase is
  also undefined when |vals| < |MaxSeriesLength|. When LBACK > 0 and the
  series is too short for the holdback (n == 0) but holds at least
  |MaxSeriesLength| points, the source drops its first |MaxSeriesLength|
  points instead. It then sets n to the remaining length, so it may store
  such a series with no test values. The model does not cover that case.
- SeriesPrep.LoadSeriesKeepsQualifying: ids are modelled as the first field
  split on ','. A repeated id overwrites the stored series and appears twice
  in the id list, as in the source.
- SeriesPrep.Holdback: `LBACK * OUTPUT_SIZE` and `(LBACK - 1) * OUTPUT_SIZE`
  are taken as exact products. In the source they are computed in 32-bit
  unsigned arithmetic (`int` times `unsigned int`), so the model agrees only
  for LBACK <= 306783378, where LBACK * 14 < 2^32. Above that the source's
  product wraps. When the wrap falls between the two products, the source
  builds the test vector from a reversed iterator range, which is undefined
  behaviour. The backtesting depth is a small count of horizons, so the
  wrapped cases are left out rather than threaded through the loader as an
  extra precondition.
- The `SEASONALITY_NUM == 0` branch (no seasonality) is not modelled: the
  active configuration is single seasonality. The exit on an unsupported
  `SEASONALITY_NUM` is not modelled either, since it is a configuration
  error.
- `random_shuffle` of the series order is left out. The uniform draws are
  modelled as supplied sequences of indices (`choices`, `picks`). The model
  assumes at least `NUM_OF_NETS * (|series|/2)` picks, enough for every net
  to be empty.
- Only one iteration of the outer `BIG_LOOP` and one epoch end are modelled.
  The learning-rate schedule and the training pass are left out.
- Ranking.PerfToRanking: returns only the first TOPN ranked indices. The
  remaining slots of the source's array are never written and never read.
  The model requires at least TOPN losses below BIG_FLOAT. Losses at or
  above BIG_FLOAT are allowed and are never picked. With fewer than TOPN
  such losses some scan finds no network, and the source records index -1
  and writes `perf_arr[-1]`, which is undefined behaviour.
- Epoch.ReassignEpoch: states the size and membership of a repaired list,
  not which draws fill it. The draws are stated once, in
  Assignment.RepairFillsAt: a repaired net takes the next |series|/2 draws
  after those used by earlier empty nets.
- Epoch.EndOfEpoch: states the repaired lists in the same per-network form
  as Epoch.ReassignEpoch; Assignment.RepairFillsAt gives the exact draws.
- Heap allocation and release (`new`/`delete` of the trainer arrays) are not
  modelled.

=== FILE: assignment.dfy ===
/** Which series each network trains on: the random initial assignment, the
    per-epoch reassignment from the rankings, and the repair of networks left
    without series.  Random draws are supplied as sequences of choices. */
module Assignment {
  import opened Config
  import Ranking
  import Text

  /** `n` empty per-network lists. */
  function EmptyLists(n: nat): (r: seq<seq<string>>)
    ensures |r| == n
    ensures forall net :: 0 <= net < n ==> r[net] == []
  {
    seq(n, net => [])
  }

  /** All entries of all lists, with repetitions. */
  function AllEntries(lists: seq<seq<string>>): multiset<string>
  {
    if lists == [] then multiset{} else AllEntries(lists[..|lists| - 1]) + multiset(lists[|lists| - 1])
  }

  lemma {:induction false} AllEntriesUpdate(lists: seq<seq<string>>, net: nat, l: seq<string>)
    requires net < |lists|
    ensures AllEntries(lists[net := l]) + multiset(lists[net]) == AllEntries(lists) + multiset(l)
    decreases |lists|
  {
    var last := |lists| - 1;
    var u := lists[net := l];
    assert AllEntries(u) == AllEntries(u[..last]) + multiset(u[last]);
    assert AllEntries(lists) == AllEntries(lists[..last]) + multiset(lists[last]);
    if net == last {
      assert u[..last] == lists[..last];
    } else {
      assert u[..last] == lists[..last][net := l];
      assert u[last] == lists[last];
      assert lists[..last][net] == lists[net];
      AllEntriesUpdate(lists[..last], net, l);
      calc {
        AllEntries(u) + multiset(lists[net]);
        AllEntries(lists[..last][net := l]) + multiset(lists[..last][net]) + multiset(lists[last]);
        AllEntries(lists[..last]) + multiset(l) + multiset(lists[last]);
      }
    }
  }

  lemma {:induction false} AllEntriesEmpty(n: nat)
    ensures AllEntries(EmptyLists(n)) == multiset{}
  {
    if n > 0 {
      var e := EmptyLists(n);
      assert e[..n - 1] == EmptyLists(n - 1);
      assert AllEntries(e) == AllEntries(e[..n - 1]) + multiset(e[n - 1]);
      AllEntriesEmpty(n - 1);
    }
  }

  lemma MultisetCancel(a: multiset<string>, b: multiset<string>, c: multiset<string>)
    requires a + c == b + c
    ensures a == b
  {
    forall y ensures a[y] == b[y] {
      assert (a + c)[y] == (b + c)[y];
    }
  }

  /** Appends series `s` to the list of network `net`. */
  function Push(lists: seq<seq<string>>, net: int, s: string): (r: seq<seq<string>>)
    requires 0 <= net < |lists|
    ensures |r| == |lists|
    ensures AllEntries(r) == AllEntries(lists) + multiset{s}
  {
    AllEntriesUpdate(lists, net, lists[net] + [s]);
    assert multiset(lists[net] + [s]) == multiset(lists[net]) + multiset{s};
    MultisetCancel(AllEntries(lists[net := lists[net] + [s]]), AllEntries(lists) + multiset{s}, multiset(lists[net]));
    lists[net := lists[net] + [s]]
  }

  /** The items routed to network `net`, in order. */
  function RoutedTo(items: seq<string>, choices: seq<int>, net: int): seq<string>
    requires |items| == |choices|
  {
    if items == [] then []
    else (if choices[0] == net then [items[0]] else []) + RoutedTo(items[1..], choices[1..], net)
  }

  /** Appends items[k] to the list of network choices[k], for k in order. */
  function Distribute(lists: seq<seq<string>>, items: seq<string>, choices: seq<int>): (r: seq<seq<string>>)
    requires |items| == |choices|
    requires forall k :: 0 <= k < |choices| ==> 0 <= choices[k] < |lists|
    ensures |r| == |lists|
    ensures AllEntries(r) == AllEntries(lists) + multiset(items)
    decreases |items|
  {
    if items == [] then lists
    else
      assert items == [items[0]] + items[1..];
      Distribute(Push(lists, choices[0], items[0]), items[1..], choices[1..])
  }

  /** Each network's list grows by exactly the items routed to it, in order. */
  lemma {:induction false} DistributeContents(lists: seq<seq<string>>, items: seq<string>, choices: seq<int>, net: int)
    requires |items| == |choices|
    requires forall k :: 0 <= k < |choices| ==> 0 <= choices[k] < |lists|
    requires 0 <= net < |lists|
    ensures Distribute(lists, items, choices)[net] == lists[net] + RoutedTo(items, choices, net)
    decreases |items|
  {
    if items != [] {
      var pushed := Push(lists, choices[0], items[0]);
      var here := if choices[0] == net then [items[0]] else [];
      var later := RoutedTo(items[1..], choices[1..], net);
      DistributeContents(pushed, items[1..], choices[1..], net);
      assert pushed[net] == lists[net] + here;
      Text.AppendAssoc(lists[net], here, later);
    }
  }

  /** `c` passes over the series, in order. */
  function Passes(sv: seq<string>, c: nat): (r: seq<string>)
    ensures |r| == c * |sv|
  {
    if c == 0 then [] else Passes(sv, c - 1) + sv
  }

  /** `c` copies of every element of `m`. */
  function Copies(m: multiset<string>, c: nat): multiset<string>
  {
    if c == 0 then multiset{} else Copies(m, c - 1) + m
  }

  lemma {:induction false} PassesCopies(sv: seq<string>, c: nat)
    ensures multiset(Passes(sv, c)) == Copies(multiset(sv), c)
  {
    if c > 0 {
      PassesCopies(sv, c - 1);
    }
  }

  /** The initial assignment: NUM_OF_NETS/2 passes over all series, each series
      appended to the list of a randomly drawn network.  `choices` holds the
      draws in the order they are made.  Every series is assigned
      NUM_OF_NETS/2 times in all, possibly twice to the same network. */
  function InitialAssignment(sv: seq<string>, choices: seq<int>): (r: seq<seq<string>>)
    requires |choices| == (NUM_OF_NETS / 2) * |sv|
    requires forall k :: 0 <= k < |choices| ==> 0 <= choices[k] < NUM_OF_NETS
    ensures |r| == NUM_OF_NETS
    ensures AllEntries(r) == Copies(multiset(sv), NUM_OF_NETS / 2)
  {
    AllEntriesEmpty(NUM_OF_NETS);
    PassesCopies(sv, NUM_OF_NETS / 2);
    Distribute(EmptyLists(NUM_OF_NETS), Passes(sv, NUM_OF_NETS / 2), choices)
  }

  lemma {:induction false} RoutedToChosen(items: seq<string>, choices: seq<int>, net: int, x: string)
    requires |items| == |choices|
    requires x in RoutedTo(items, choices, net)
    ensures exists k :: 0 <= k < |items| && items[k] == x && choices[k] == net
  {
    if items != [] {
      if !(choices[0] == net && items[0] == x) {
        RoutedToChosen(items[1..], choices[1..], net, x);
        var k :| 0 <= k < |items| - 1 && items[1..][k] == x && choices[1..][k] == net;
        assert items[k + 1] == x && choices[k + 1] == net;
      }
    }
  }

  lemma {:induction false} PassesMember(sv: seq<string>, c: nat, x: string)
    requires x in Passes(sv, c)
    ensures x in sv
  {
    if c > 0 && x !in sv {
      PassesMember(sv, c - 1, x);
    }
  }

  /** Network `net` initially holds, in draw order, the series whose draw
      named it; all of them are loaded series. */
  lemma InitialAssignmentContents(sv: seq<string>, choices: seq<int>, net: int)
    requires |choices| == (NUM_OF_NETS / 2) * |sv|
    requires forall k :: 0 <= k < |choices| ==> 0 <= choices[k] < NUM_OF_NETS
    requires 0 <= net < NUM_OF_NETS
    ensures InitialAssignment(sv, choices)[net] == RoutedTo(Passes(sv, NUM_OF_NETS / 2), choices, net)
    ensures forall x :: x in InitialAssignment(sv, choices)[net] ==> x in sv
  {
    var items := Passes(sv, NUM_OF_NETS / 2);
    DistributeContents(EmptyLists(NUM_OF_NETS), items, choices, net);
    assert [] + RoutedTo(items, choices, net) == RoutedTo(items, choices, net);
    forall x | x in InitialAssignment(sv, choices)[net]
      ensures x in sv
    {
      RoutedToChosen(items, choices, net, x);
      var k :| 0 <= k < |items| && items[k] == x && choices[k] == net;
      PassesMember(sv, NUM_OF_NETS / 2, x);
    }
  }

  /** A usable ranking: TOPN distinct network indices. */
  predicate WellFormedRanking(r: seq<int>)
  {
    && |r| == TOPN
    && (forall k :: 0 <= k < |r| ==> 0 <= r[k] < NUM_OF_NETS)
    && (forall a, b :: 0 <= a < b < |r| ==> r[a] != r[b])
  }

  /** Every loaded series has a usable ranking. */
  predicate RankedSeries(sv: seq<string>, rankings: map<string, seq<int>>)
  {
    forall s :: s in sv ==> s in rankings && WellFormedRanking(rankings[s])
  }

  /** Appends `s` to the list of each network in `nets`, in order. */
  function PushAll(lists: seq<seq<string>>, nets: seq<int>, s: string): (r: seq<seq<string>>)
    requires forall k :: 0 <= k < |nets| ==> 0 <= nets[k] < |lists|
    ensures |r| == |lists|
    ensures |AllEntries(r)| == |AllEntries(lists)| + |nets|
    decreases |nets|
  {
    if nets == [] then lists else PushAll(Push(lists, nets[0], s), nets[1..], s)
  }

  /** With distinct networks, `s` lands once at the end of each listed
      network's list and nowhere else. */
  lemma {:induction false} PushAllContents(lists: seq<seq<string>>, nets: seq<int>, s: string, net: int)
    requires forall k :: 0 <= k < |nets| ==> 0 <= nets[k] < |lists|
    requires forall a, b :: 0 <= a < b < |nets| ==> nets[a] != nets[b]
    requires 0 <= net < |lists|
    ensures PushAll(lists, nets, s)[net] == lists[net] + (if net in nets then [s] else [])
    decreases |nets|
  {
    if nets != [] {
      var l1 := Push(lists, nets[0], s);
      var tail := nets[1..];
      assert forall a, b :: 0 <= a < b < |tail| ==> tail[a] == nets[a + 1] && tail[b] == nets[b + 1];
      PushAllContents(l1, tail, s, net);
      if net == nets[0] {
        forall k | 0 <= k < |tail|
          ensures tail[k] != net
        {
          assert tail[k] == nets[k + 1];
        }
        assert l1[net] == lists[net] + [s];
      } else {
        assert l1[net] == lists[net];
        assert net in nets <==> net in tail by {
          assert nets == [nets[0]] + tail;
        }
      }
    }
  }

  /** The series whose ranking includes network `net`, in file order. */
  function RankedOn(sv: seq<string>, rankings: map<string, seq<int>>, net: int): seq<string>
    requires RankedSeries(sv, rankings)
  {
    if sv == [] then []
    else
      RankedTail(sv, rankings);
      (if net in rankings[sv[0]] then [sv[0]] else []) + RankedOn(sv[1..], rankings, net)
  }

  lemma RankedTail(sv: seq<string>, rankings: map<string, seq<int>>)
    requires sv != [] && RankedSeries(sv, rankings)
    ensures RankedSeries(sv[1..], rankings)
  {
    assert forall s :: s in sv[1..] ==> s in sv;
  }

  function AssignFrom(lists: seq<seq<string>>, sv: seq<string>, rankings: map<string, seq<int>>): (r: seq<seq<string>>)
    requires |lists| == NUM_OF_NETS
    requires RankedSeries(sv, rankings)
    ensures |r| == NUM_OF_NETS
    ensures |AllEntries(r)| == |AllEntries(lists)| + TOPN * |sv|
    decreases |sv|
  {
    if sv == [] then lists
    else
      RankedTail(sv, rankings);
      AssignFrom(PushAll(lists, rankings[sv[0]], sv[0]), sv[1..], rankings)
  }

  lemma {:induction false} AssignFromContents(lists: seq<seq<string>>, sv: seq<string>, rankings: map<string, seq<int>>, net: int)
    requires |lists| == NUM_OF_NETS
    requires RankedSeries(sv, rankings)
    requires 0 <= net < NUM_OF_NETS
    ensures AssignFrom(lists, sv, rankings)[net] == lists[net] + RankedOn(sv, rankings, net)
    decreases |sv|
  {
    if sv != [] {
      RankedTail(sv, rankings);
      var nets := rankings[sv[0]];
      var pushed := PushAll(lists, nets, sv[0]);
      var here := if net in nets then [sv[0]] else [];
      var later := RankedOn(sv[1..], rankings, net);
      PushAllContents(lists, nets, sv[0], net);
      AssignFromContents(pushed, sv[1..], rankings, net);
      assert AssignFrom(lists, sv, rankings) == AssignFrom(pushed, sv[1..], rankings);
      assert RankedOn(sv, rankings, net) == here + later;
      Text.AppendAssoc(lists[net], here, later);
    }
  }

  /** The per-epoch reassignment: all lists are cleared, then each series, in
      file order, is appended to the list of each of its TOPN ranked networks. */
  function Reassign(sv: seq<string>, rankings: map<string, seq<int>>): (r: seq<seq<string>>)
    requires RankedSeries(sv, rankings)
    ensures |r| == NUM_OF_NETS
    ensures |AllEntries(r)| == TOPN * |sv|
  {
    AllEntriesEmpty(NUM_OF_NETS);
    AssignFrom(EmptyLists(NUM_OF_NETS), sv, rankings)
  }

  /** Each network's list after reassignment is exactly the series ranked on
      it, in file order. */
  lemma ReassignContents(sv: seq<string>, rankings: map<string, seq<int>>)
    requires RankedSeries(sv, rankings)
    ensures forall net :: 0 <= net < NUM_OF_NETS ==> Reassign(sv, rankings)[net] == RankedOn(sv, rankings, net)
  {
    forall net | 0 <= net < NUM_OF_NETS
      ensures Reassign(sv, rankings)[net] == RankedOn(sv, rankings, net)
    {
      AssignFromContents(EmptyLists(NUM_OF_NETS), sv, rankings, net);
      assert [] + RankedOn(sv, rankings, net) == RankedOn(sv, rankings, net);
    }
  }

  lemma {:induction false} RankedOnCount(sv: seq<string>, rankings: map<string, seq<int>>, net: int, x: string)
    requires RankedSeries(sv, rankings)
    ensures multiset(RankedOn(sv, rankings, net))[x] ==
      (if x in sv && net in rankings[x] then multiset(sv)[x] else 0)
  {
    if sv != [] {
      RankedTail(sv, rankings);
      RankedOnCount(sv[1..], rankings, net, x);
      assert sv == [sv[0]] + sv[1..];
      assert multiset(sv) == multiset{sv[0]} + multiset(sv[1..]);
      assert x in sv <==> x == sv[0] || x in sv[1..];
    }
  }

  lemma {:induction false} RankedOnMembers(sv: seq<string>, rankings: map<string, seq<int>>, net: int, x: string)
    requires RankedSeries(sv, rankings)
    requires x in RankedOn(sv, rankings, net)
    ensures x in sv && net in rankings[x]
  {
    if sv[0] != x || net !in rankings[sv[0]] {
      RankedTail(sv, rankings);
      RankedOnMembers(sv[1..], rankings, net, x);
    }
  }

  /** After reassignment each series occurs in the list of each of its ranked
      networks as often as it occurs among the series (once, for distinct
      ids), and in no other list. */
  lemma ReassignMembership(sv: seq<string>, rankings: map<string, seq<int>>)
    requires RankedSeries(sv, rankings)
    ensures forall net, x :: 0 <= net < NUM_OF_NETS ==>
      multiset(Reassign(sv, rankings)[net])[x] ==
        (if x in sv && net in rankings[x] then multiset(sv)[x] else 0)
  {
    ReassignContents(sv, rankings);
    forall net, x | 0 <= net < NUM_OF_NETS
      ensures multiset(Reassign(sv, rankings)[net])[x] ==
        (if x in sv && net in rankings[x] then multiset(sv)[x] else 0)
    {
      RankedOnCount(sv, rankings, net, x);
    }
  }

  /** Number of empty lists. */
  function EmptyCount(lists: seq<seq<string>>): (c: nat)
    ensures c <= |lists|
  {
    if lists == [] then 0 else (if lists[0] == [] then 1 else 0) + EmptyCount(lists[1..])
  }

  /** Draws the repair consumes: `half` for each empty list. */
  function Needed(lists: seq<seq<string>>, half: nat): (n: nat)
    ensures half == 0 ==> n == 0
    ensures n <= |lists| * half
  {
    if lists == [] then 0
    else
      OneMore(|lists| - 1, half);
      (if lists[0] == [] then half else 0) + Needed(lists[1..], half)
  }

  /** The repair consumes EmptyCount(lists) * half draws. */
  lemma {:induction false} NeededCount(lists: seq<seq<string>>, half: nat)
    ensures Needed(lists, half) == EmptyCount(lists) * half
  {
    if lists != [] {
      NeededCount(lists[1..], half);
      OneMore(EmptyCount(lists[1..]), half);
    }
  }

  lemma OneMore(c: nat, h: nat)
    ensures (1 + c) * h == h + c * h
  {
  }

  /** The series at the drawn positions. */
  function Picked(sv: seq<string>, picks: seq<int>): (r: seq<string>)
    requires forall k :: 0 <= k < |picks| ==> 0 <= picks[k] < |sv|
    ensures |r| == |picks|
    ensures forall k :: 0 <= k < |r| ==> r[k] == sv[picks[k]]
  {
    seq(|picks|, k requires 0 <= k < |picks| => sv[picks[k]])
  }

  /** Draws are valid series positions. */
  predicate ValidPicks(sv: seq<string>, picks: seq<int>)
  {
    forall k :: 0 <= k < |picks| ==> 0 <= picks[k] < |sv|
  }

  /** The degeneracy repair, network by network: an empty list receives
      |sv|/2 series drawn at the positions `picks` supplies, consumed in
      order; a non-empty list is left alone. */
  function Repair(lists: seq<seq<string>>, sv: seq<string>, picks: seq<int>): (r: seq<seq<string>>)
    requires ValidPicks(sv, picks)
    requires |picks| >= Needed(lists, |sv| / 2)
    ensures |r| == |lists|
    decreases |lists|
  {
    if lists == [] then []
    else
      var half := |sv| / 2;
      if lists[0] == [] then
        [Picked(sv, picks[..half])] + Repair(lists[1..], sv, picks[half..])
      else
        [lists[0]] + Repair(lists[1..], sv, picks)
  }

  /** A network whose list is non-empty keeps it. */
  lemma {:induction false} RepairKeeps(lists: seq<seq<string>>, sv: seq<string>, picks: seq<int>, net: int)
    requires ValidPicks(sv, picks)
    requires |picks| >= Needed(lists, |sv| / 2)
    requires 0 <= net < |lists| && lists[net] != []
    ensures Repair(lists, sv, picks)[net] == lists[net]
    decreases |lists|
  {
    if net > 0 {
      if lists[0] == [] {
        RepairKeeps(lists[1..], sv, picks[|sv| / 2..], net - 1);
      } else {
        RepairKeeps(lists[1..], sv, picks, net - 1);
      }
    }
  }

  lemma NeededPrefix(lists: seq<seq<string>>, half: nat, net: nat)
    requires 0 < net <= |lists|
    ensures Needed(lists[..net], half) == (if lists[0] == [] then half else 0) + Needed(lists[1..][..net - 1], half)
  {
    assert lists[..net][1..] == lists[1..][..net - 1];
  }

  /** An empty network's list becomes the series at the next |sv|/2 draws,
      after those consumed by the empty networks before it. */
  lemma {:induction false} RepairFillsAt(lists: seq<seq<string>>, sv: seq<string>, picks: seq<int>, net: int)
    requires ValidPicks(sv, picks)
    requires |picks| >= Needed(lists, |sv| / 2)
    requires 0 <= net < |lists| && lists[net] == []
    ensures Needed(lists[..net], |sv| / 2) + |sv| / 2 <= |picks|
    ensures Repair(lists, sv, picks)[net] ==
      Picked(sv, picks[Needed(lists[..net], |sv| / 2)..Needed(lists[..net], |sv| / 2) + |sv| / 2])
    decreases |lists|
  {
    var half := |sv| / 2;
    if net == 0 {
      assert lists[..0] == [];
    } else {
      NeededPrefix(lists, half, net);
      var o := Needed(lists[1..][..net - 1], half);
      if lists[0] == [] {
        RepairFillsAt(lists[1..], sv, picks[half..], net - 1);
        assert picks[half..][o..o + half] == picks[half + o..half + o + half];
      } else {
        RepairFillsAt(lists[1..], sv, picks, net - 1);
      }
    }
  }

  /** A repaired network's series are all loaded series, |sv|/2 of them. */
  lemma RepairFills(lists: seq<seq<string>>, sv: seq<string>, picks: seq<int>)
    requires ValidPicks(sv, picks)
    requires |picks| >= Needed(lists, |sv| / 2)
    ensures forall net :: 0 <= net < |lists| && lists[net] == [] ==>
      |Repair(lists, sv, picks)[net]| == |sv| / 2
      && forall x :: x in Repair(lists, sv, picks)[net] ==> x in sv
  {
    forall net | 0 <= net < |lists| && lists[net] == []
      ensures |Repair(lists, sv, picks)[net]| == |sv| / 2
      ensures forall x :: x in Repair(lists, sv, picks)[net] ==> x in sv
    {
      RepairFillsAt(lists, sv, picks, net);
    }
  }

  /** With at least two series, no network is left empty by the repair. */
  lemma RepairNonEmpty(lists: seq<seq<string>>, sv: seq<string>, picks: seq<int>)
    requires ValidPicks(sv, picks)
    requires |picks| >= Needed(lists, |sv| / 2)
    requires |sv| >= 2
    ensures forall net :: 0 <= net < |lists| ==> Repair(lists, sv, picks)[net] != []
  {
    RepairFills(lists, sv, picks);
    forall net | 0 <= net < |lists|
      ensures Repair(lists, sv, picks)[net] != []
    {
      if lists[net] != [] {
        RepairKeeps(lists, sv, picks, net);
      }
    }
  }

  /** With a single series and fewer ranked networks than networks, some
      network gets no series at reassignment and the repair (|sv|/2 = 0
      draws) leaves it empty. */
  lemma SingleSeriesStaysEmpty(sv: seq<string>, rankings: map<string, seq<int>>, picks: seq<int>)
    requires |sv| == 1
    requires RankedSeries(sv, rankings)
    requires ValidPicks(sv, picks)
    ensures exists net :: 0 <= net < NUM_OF_NETS && Repair(Reassign(sv, rankings), sv, picks)[net] == []
  {
    var lists := Reassign(sv, rankings);
    var net := Ranking.SomeUntaken(rankings[sv[0]], NUM_OF_NETS);
    ReassignContents(sv, rankings);
    assert sv[1..] == [];
    assert lists[net] == RankedOn(sv, rankings, net) == [];
    RepairFillsAt(lists, sv, picks, net);
  }

  /** Every entry of a repaired reassignment is a loaded series. */
  lemma EpochAssignmentMembers(sv: seq<string>, rankings: map<string, seq<int>>, picks: seq<int>)
    requires RankedSeries(sv, rankings)
    requires ValidPicks(sv, picks)
    requires |picks| >= Needed(Reassign(sv, rankings), |sv| / 2)
    ensures forall net, x :: 0 <= net < NUM_OF_NETS && x in Repair(Reassign(sv, rankings), sv, picks)[net] ==> x in sv
  {
    var lists := Reassign(sv, rankings);
    ReassignContents(sv, rankings);
    RepairFills(lists, sv, picks);
    forall net, x | 0 <= net < NUM_OF_NETS && x in Repair(lists, sv, picks)[net]
      ensures x in sv
    {
      if lists[net] != [] {
        RepairKeeps(lists, sv, picks, net);
        RankedOnMembers(sv, rankings, net, x);
      }
    }
  }
}

=== FILE: config.dfy ===
/** Compile-time constants of the daily configuration block that the
    bookkeeping depends on.  Values are those of the active parameter block. */
module Config {

  /** Number of networks in the ensemble of specialists. */
  const NUM_OF_NETS: nat := 5

  /** Number of best networks a series is trained on and averaged over. */
  const TOPN: nat := 4

  /** Number of recent epochs kept in each per-(series, network) forecast ring. */
  const AVERAGING_LEVEL: nat := 5

  /** Reporting frequency, in epochs. */
  const FREQ_OF_TEST: nat := 1

  /** Forecast horizon. */
  const OUTPUT_SIZE: nat := 14

  /** Length of the network's input window. */
  const INPUT_SIZE: nat := 7

  const MIN_INP_SEQ_LEN: nat := 0

  /** Shortest usable series length (compared with the usable length n). */
  const MIN_SERIES_LENGTH: nat := OUTPUT_SIZE + INPUT_SIZE + MIN_INP_SEQ_LEN + 2

  /** Size of the one-hot category vector. */
  const NUM_OF_CATEGORIES: nat := 6

  /** Sentinel standing for "no loss yet / already taken" in the ranking scan (1e38). */
  const BIG_FLOAT: real := 100000000000000000000000000000000000000.0
}

=== FILE: epoch.dfy ===
/** The end-of-epoch bookkeeping of one training run: recording every
    network's validation forecast for every series, reporting the final
    forecasts from the rankings of the previous epoch, re-ranking the
    networks per series, reassigning the series and repairing networks left
    without series.  Validation forecasts, losses and random draws are
    inputs. */
module Epoch {
  import opened Config
  import Ranking
  import Assignment
  import opened Forecasts

  /** What survives from one epoch to the next. */
  datatype Bookkeeping = Bookkeeping(
    assignment: seq<seq<string>>,          // per network, the series it trains on
    rankings: map<string, seq<int>>,       // per series, its TOPN best networks
    rings: map<string, seq<Ring>>,         // per series, per network, recent forecasts
    finals: map<string, Forecast>)         // per series, the reported forecast

  /** The state at the start of epoch `e`. */
  ghost predicate Ready(b: Bookkeeping, sv: seq<string>, e: nat)
  {
    && |b.assignment| == NUM_OF_NETS
    && (forall s :: s in sv ==> s in b.rings && RingsReady(b.rings[s], e))
    && (e > 0 ==> Assignment.RankedSeries(sv, b.rankings))
  }

  /** One series' rings at the start of epoch `e`: the slots of epochs before
      `e` hold forecasts, and the mean slot does once it has been computed. */
  ghost predicate RingsReady(rings: seq<Ring>, e: nat)
  {
    && |rings| == NUM_OF_NETS
    && forall n :: 0 <= n < NUM_OF_NETS ==>
      && |rings[n]| == AVERAGING_LEVEL + 1
      && (forall j :: 0 <= j < AVERAGING_LEVEL && j < e ==> Shaped(rings[n][j]))
      && (e > AVERAGING_LEVEL ==> Shaped(rings[n][AVERAGING_LEVEL]))
  }

  /** Before the first epoch: the random initial assignment, no rankings,
      empty rings and no final forecasts. */
  function Start(sv: seq<string>, choices: seq<int>): (b: Bookkeeping)
    requires |choices| == (NUM_OF_NETS / 2) * |sv|
    requires forall k :: 0 <= k < |choices| ==> 0 <= choices[k] < NUM_OF_NETS
    ensures Ready(b, sv, 0)
    ensures b.finals == map[] && b.rankings == map[]
    ensures |b.assignment| == NUM_OF_NETS
    ensures Assignment.AllEntries(b.assignment) == Assignment.Copies(multiset(sv), NUM_OF_NETS / 2)
    ensures forall s :: s in sv ==> forall n :: 0 <= n < NUM_OF_NETS ==> b.rings[s][n] == Replay([])
  {
    Bookkeeping(
      Assignment.InitialAssignment(sv, choices),
      map[],
      map s | s in sv :: seq(NUM_OF_NETS, n => EmptyRing()),
      map[])
  }

  /** Validation results of one epoch: a forecast and a loss per network for
      every series. */
  predicate EpochInputs(sv: seq<string>, outs: map<string, seq<Forecast>>, perf: map<string, seq<real>>)
  {
    forall s :: s in sv ==>
      && s in outs && |outs[s]| == NUM_OF_NETS && AllShaped(outs[s])
      && s in perf && |perf[s]| == NUM_OF_NETS && Ranking.EnoughBelow(perf[s], TOPN)
  }

  /** Whether epoch `e` reports final forecasts. */
  predicate Reports(e: nat)
  {
    e > 0 && e % FREQ_OF_TEST == 0 && e >= AVERAGING_LEVEL
  }

  /** Records epoch `e`'s forecasts of one series in each network's ring. */
  function RecordSeries(rings: seq<Ring>, e: nat, outs: seq<Forecast>): (r: seq<Ring>)
    requires RingsReady(rings, e)
    requires |outs| == NUM_OF_NETS && AllShaped(outs)
    ensures RingsReady(r, e + 1)
    ensures forall n :: 0 <= n < NUM_OF_NETS ==> r[n] == Record(rings[n], e, outs[n])
  {
    seq(NUM_OF_NETS, n requires 0 <= n < NUM_OF_NETS => Record(rings[n], e, outs[n]))
  }

  /** Records epoch `e`'s forecasts in every (series, network) ring. */
  function RecordAll(rings: map<string, seq<Ring>>, sv: seq<string>, e: nat, outs: map<string, seq<Forecast>>)
    : (r: map<string, seq<Ring>>)
    requires forall s :: s in sv ==> s in rings && RingsReady(rings[s], e)
    requires forall s :: s in sv ==> s in outs && |outs[s]| == NUM_OF_NETS && AllShaped(outs[s])
    ensures forall s :: s in sv ==> s in r && r[s] == RecordSeries(rings[s], e, outs[s])
  {
    map s | s in sv :: RecordSeries(rings[s], e, outs[s])
  }

  /** After epoch AVERAGING_LEVEL, every ranked network's mean slot holds a
      forecast. */
  lemma RankedMeansReady(rings: seq<Ring>, e: nat, ranking: seq<int>)
    requires RingsReady(rings, e + 1) && e >= AVERAGING_LEVEL
    requires Assignment.WellFormedRanking(ranking)
    ensures MeansReady(rings, ranking)
  {
    forall k | 0 <= k < TOPN
      ensures |rings[ranking[k]]| == AVERAGING_LEVEL + 1 && Shaped(rings[ranking[k]][AVERAGING_LEVEL])
    {
      var n := ranking[k];
      assert 0 <= n < NUM_OF_NETS;
    }
  }

  /** The final forecast of every series, from its rings and ranking. */
  function FinalsOf(rings: map<string, seq<Ring>>, rankings: map<string, seq<int>>, sv: seq<string>)
    : (r: map<string, Forecast>)
    requires forall s :: s in sv ==> s in rings && s in rankings && MeansReady(rings[s], rankings[s])
    ensures forall s :: s in sv ==> s in r && r[s] == TopNForecast(rings[s], rankings[s])
  {
    map s | s in sv :: TopNForecast(rings[s], rankings[s])
  }

  /** The final forecasts after epoch `e`: replaced for every series when the
      epoch reports, unchanged otherwise. */
  function Report(finals: map<string, Forecast>, rings: map<string, seq<Ring>>, rankings: map<string, seq<int>>,
                  sv: seq<string>, e: nat): (r: map<string, Forecast>)
    requires Reports(e) ==> forall s :: s in sv ==> s in rings && s in rankings && MeansReady(rings[s], rankings[s])
  {
    if Reports(e) then finals + FinalsOf(rings, rankings, sv) else finals
  }

  /** Ranks the networks of every series by this epoch's losses. */
  method RankAll(sv: seq<string>, perf: map<string, seq<real>>) returns (rankings: map<string, seq<int>>)
    requires forall s :: s in sv ==> s in perf && |perf[s]| == NUM_OF_NETS && Ranking.EnoughBelow(perf[s], TOPN)
    ensures Assignment.RankedSeries(sv, rankings)
    ensures forall s :: s in sv ==> Ranking.IsRanking(perf[s], TOPN, rankings[s])
  {
    rankings := map[];
    var i := 0;
    while i < |sv|
      invariant 0 <= i <= |sv|
      invariant forall k :: 0 <= k < i ==> sv[k] in rankings
      invariant forall s :: s in rankings ==>
        s in perf && Ranking.IsRanking(perf[s], TOPN, rankings[s]) && Assignment.WellFormedRanking(rankings[s])
    {
      var r := Ranking.PerfToRanking(perf[sv[i]], TOPN);
      Ranking.RankingDistinct(perf[sv[i]], TOPN, r);
      rankings := rankings[sv[i] := r];
      i := i + 1;
    }
  }

  /** The reporting half of the end of epoch `e`: every ring records the
      epoch's forecast, and on a reporting epoch every series' final forecast
      becomes the top-N average under the rankings of the previous epoch. */
  method RecordEpoch(b: Bookkeeping, sv: seq<string>, e: nat, outs: map<string, seq<Forecast>>)
    returns (rings: map<string, seq<Ring>>, finals: map<string, Forecast>)
    requires Ready(b, sv, e)
    requires forall s :: s in sv ==> s in outs && |outs[s]| == NUM_OF_NETS && AllShaped(outs[s])
    ensures forall s :: s in sv ==> s in rings && RingsReady(rings[s], e + 1)
    ensures forall s :: s in sv ==> rings[s] == RecordSeries(b.rings[s], e, outs[s])
    ensures Reports(e) ==> forall s :: s in sv ==> MeansReady(rings[s], b.rankings[s])
    ensures Reports(e) ==> forall s :: s in sv ==>
      s in finals && finals[s] == TopNForecast(rings[s], b.rankings[s])
    ensures !Reports(e) ==> finals == b.finals
  {
    rings := RecordAll(b.rings, sv, e, outs);
    if Reports(e) {
      forall s | s in sv
        ensures MeansReady(rings[s], b.rankings[s])
      {
        RankedMeansReady(rings[s], e, b.rankings[s]);
      }
    }
    finals := Report(b.finals, rings, b.rankings, sv, e);
  }

  /** The reassignment half of the end of an epoch: every series is ranked
      by this epoch's losses and assigned to its TOPN best networks, and
      every network left empty is repaired with |sv|/2 drawn series. */
  method ReassignEpoch(sv: seq<string>, perf: map<string, seq<real>>, picks: seq<int>)
    returns (rankings: map<string, seq<int>>, assignment: seq<seq<string>>)
    requires forall s :: s in sv ==> s in perf && |perf[s]| == NUM_OF_NETS && Ranking.EnoughBelow(perf[s], TOPN)
    requires Assignment.ValidPicks(sv, picks) && |picks| >= NUM_OF_NETS * (|sv| / 2)
    ensures Assignment.RankedSeries(sv, rankings)
    ensures forall s :: s in sv ==> Ranking.IsRanking(perf[s], TOPN, rankings[s])
    ensures |assignment| == NUM_OF_NETS
    ensures forall n :: 0 <= n < NUM_OF_NETS && Assignment.RankedOn(sv, rankings, n) != [] ==>
      assignment[n] == Assignment.RankedOn(sv, rankings, n)
    ensures forall n :: 0 <= n < NUM_OF_NETS && Assignment.RankedOn(sv, rankings, n) == [] ==>
      |assignment[n]| == |sv| / 2
    ensures forall n, x :: 0 <= n < NUM_OF_NETS && x in assignment[n] ==> x in sv
    ensures |sv| >= 2 ==> forall n :: 0 <= n < NUM_OF_NETS ==> assignment[n] != []
  {
    rankings := RankAll(sv, perf);
    var lists := Assignment.Reassign(sv, rankings);
    assignment := Assignment.Repair(lists, sv, picks);
    Assignment.ReassignContents(sv, rankings);
    forall n | 0 <= n < NUM_OF_NETS && lists[n] != []
      ensures assignment[n] == lists[n]
    {
      Assignment.RepairKeeps(lists, sv, picks, n);
    }
    Assignment.RepairFills(lists, sv, picks);
    Assignment.EpochAssignmentMembers(sv, rankings, picks);
    if |sv| >= 2 {
      Assignment.RepairNonEmpty(lists, sv, picks);
    }
  }

  /** The end of epoch `e`.  The reported forecasts average the networks
      ranked best at the end of the PREVIOUS epoch; the new rankings only
      take effect from the next report on. */
  method EndOfEpoch(b: Bookkeeping, sv: seq<string>, e: nat, outs: map<string, seq<Forecast>>,
                    perf: map<string, seq<real>>, picks: seq<int>) returns (next: Bookkeeping)
    requires Ready(b, sv, e)
    requires EpochInputs(sv, outs, perf)
    requires Assignment.ValidPicks(sv, picks) && |picks| >= NUM_OF_NETS * (|sv| / 2)
    ensures Ready(next, sv, e + 1)
    ensures forall s :: s in sv ==> s in next.rings && next.rings[s] == RecordSeries(b.rings[s], e, outs[s])
    ensures Reports(e) ==> forall s :: s in sv ==>
      s in next.finals && next.finals[s] == TopNForecast(next.rings[s], b.rankings[s])
    ensures !Reports(e) ==> next.finals == b.finals
    ensures forall s :: s in sv ==> Ranking.IsRanking(perf[s], TOPN, next.rankings[s])
    ensures forall n :: 0 <= n < NUM_OF_NETS && Assignment.RankedOn(sv, next.rankings, n) != [] ==>
      next.assignment[n] == Assignment.RankedOn(sv, next.rankings, n)
    ensures forall n :: 0 <= n < NUM_OF_NETS && Assignment.RankedOn(sv, next.rankings, n) == [] ==>
      |next.assignment[n]| == |sv| / 2
    ensures forall n, x :: 0 <= n < NUM_OF_NETS && x in next.assignment[n] ==> x in sv
    ensures |sv| >= 2 ==> forall n :: 0 <= n < NUM_OF_NETS ==> next.assignment[n] != []
  {
    var rings, finals := RecordEpoch(b, sv, e, outs);
    var rankings, assignment := ReassignEpoch(sv, perf, picks);
    next := Bookkeeping(assignment, rankings, rings, finals);
  }
}

=== FILE: forecasts.dfy ===
/** Forecast bookkeeping per (series, network): a ring of the last
    AVERAGING_LEVEL validation forecasts plus one slot holding their
    element-wise mean, and the final forecast that averages the mean slots of
    a series' top networks.  Forecast values are reals. */
module Forecasts {
  import opened Config

  /** One forecast over the horizon. */
  type Forecast = seq<real>

  predicate Shaped(f: Forecast)
  {
    |f| == OUTPUT_SIZE
  }

  predicate AllShaped(fs: seq<Forecast>)
  {
    forall k :: 0 <= k < |fs| ==> Shaped(fs[k])
  }

  /** Sum of position `i` over the forecasts, accumulated left to right. */
  function ColumnSum(fs: seq<Forecast>, i: nat): real
    requires AllShaped(fs) && i < OUTPUT_SIZE
  {
    if fs == [] then 0.0 else ColumnSum(fs[..|fs| - 1], i) + fs[|fs| - 1][i]
  }

  lemma {:induction false} ColumnSumAppend(a: seq<Forecast>, b: seq<Forecast>, i: nat)
    requires AllShaped(a) && AllShaped(b) && i < OUTPUT_SIZE
    ensures AllShaped(a + b)
    ensures ColumnSum(a + b, i) == ColumnSum(a, i) + ColumnSum(b, i)
    decreases |b|
  {
    if b == [] {
      assert a + b == a;
    } else {
      var b' := b[..|b| - 1];
      assert (a + b)[..|a + b| - 1] == a + b';
      assert (a + b)[|a + b| - 1] == b[|b| - 1];
      ColumnSumAppend(a, b', i);
    }
  }

  /** Element-wise mean of the forecasts. */
  function Average(fs: seq<Forecast>): (r: Forecast)
    requires |fs| >= 1 && AllShaped(fs)
    ensures Shaped(r)
  {
    seq(OUTPUT_SIZE, i requires 0 <= i < OUTPUT_SIZE => ColumnSum(fs, i) / (|fs| as real))
  }

  lemma {:induction false} ColumnSumBounds(fs: seq<Forecast>, i: nat, lo: real, hi: real)
    requires AllShaped(fs) && i < OUTPUT_SIZE
    requires forall k :: 0 <= k < |fs| ==> lo <= fs[k][i] <= hi
    ensures (|fs| as real) * lo <= ColumnSum(fs, i) <= (|fs| as real) * hi
  {
    if fs != [] {
      var n := |fs| as real;
      ColumnSumBounds(fs[..|fs| - 1], i, lo, hi);
      assert (n - 1.0) * lo + lo == n * lo;
      assert (n - 1.0) * hi + hi == n * hi;
    }
  }

  /** A mean lies within the range of what it averages. */
  lemma AverageBounds(fs: seq<Forecast>, lo: real, hi: real)
    requires |fs| >= 1 && AllShaped(fs)
    requires forall k, i :: 0 <= k < |fs| && 0 <= i < OUTPUT_SIZE ==> lo <= fs[k][i] <= hi
    ensures forall i :: 0 <= i < OUTPUT_SIZE ==> lo <= Average(fs)[i] <= hi
  {
    forall i | 0 <= i < OUTPUT_SIZE
      ensures lo <= Average(fs)[i] <= hi
    {
      ColumnSumBounds(fs, i, lo, hi);
      var n := |fs| as real;
      var sum := ColumnSum(fs, i);
      assert Average(fs)[i] == sum / n;
      DivBounds(sum, n, lo, hi);
    }
  }

  lemma DivBounds(sum: real, n: real, lo: real, hi: real)
    requires n > 0.0 && n * lo <= sum <= n * hi
    ensures lo <= sum / n <= hi
  {
    assert sum / n * n == sum;
  }

  lemma {:induction false} ColumnSumConstant(fs: seq<Forecast>, f: Forecast, i: nat)
    requires AllShaped(fs) && i < OUTPUT_SIZE && Shaped(f)
    requires forall k :: 0 <= k < |fs| ==> fs[k] == f
    ensures ColumnSum(fs, i) == (|fs| as real) * f[i]
  {
    if fs != [] {
      ColumnSumConstant(fs[..|fs| - 1], f, i);
    }
  }

  /** Averaging identical forecasts gives that forecast back. */
  lemma AverageConsensus(fs: seq<Forecast>, f: Forecast)
    requires |fs| >= 1 && AllShaped(fs) && Shaped(f)
    requires forall k :: 0 <= k < |fs| ==> fs[k] == f
    ensures Average(fs) == f
  {
    forall i | 0 <= i < OUTPUT_SIZE
      ensures Average(fs)[i] == f[i]
    {
      ColumnSumConstant(fs, f, i);
    }
  }

  /** The mean does not depend on where a rotation starts. */
  lemma AverageRotation(fs: seq<Forecast>, s: nat)
    requires |fs| >= 1 && AllShaped(fs) && s <= |fs|
    ensures AllShaped(fs[s..] + fs[..s])
    ensures Average(fs[s..] + fs[..s]) == Average(fs)
  {
    assert fs == fs[..s] + fs[s..];
    forall i | 0 <= i < OUTPUT_SIZE
      ensures ColumnSum(fs[s..] + fs[..s], i) == ColumnSum(fs, i)
    {
      ColumnSumAppend(fs[s..], fs[..s], i);
      ColumnSumAppend(fs[..s], fs[s..], i);
    }
  }

  /** The averaging loop as written: copy the first forecast, add the
      others position by position, then divide by their number. */
  method AverageLoop(fs: seq<Forecast>) returns (avg: Forecast)
    requires |fs| >= 1 && AllShaped(fs)
    ensures avg == Average(fs)
  {
    avg := fs[0];
    assert fs[..1] == [fs[0]];
    assert forall i :: 0 <= i < OUTPUT_SIZE ==> avg[i] == ColumnSum(fs[..1], i);
    var ii := 1;
    while ii < |fs|
      invariant 1 <= ii <= |fs|
      invariant |avg| == OUTPUT_SIZE
      invariant forall i :: 0 <= i < OUTPUT_SIZE ==> avg[i] == ColumnSum(fs[..ii], i)
    {
      assert fs[..ii + 1][..ii] == fs[..ii];
      var iii := 0;
      while iii < OUTPUT_SIZE
        invariant 0 <= iii <= OUTPUT_SIZE
        invariant |avg| == OUTPUT_SIZE
        invariant forall i :: 0 <= i < iii ==> avg[i] == ColumnSum(fs[..ii + 1], i)
        invariant forall i :: iii <= i < OUTPUT_SIZE ==> avg[i] == ColumnSum(fs[..ii], i)
      {
        avg := avg[iii := avg[iii] + fs[ii][iii]];
        iii := iii + 1;
      }
      ii := ii + 1;
    }
    assert fs[..|fs|] == fs;
    var iii := 0;
    while iii < OUTPUT_SIZE
      invariant 0 <= iii <= OUTPUT_SIZE
      invariant |avg| == OUTPUT_SIZE
      invariant forall i :: 0 <= i < iii ==> avg[i] == Average(fs)[i]
      invariant forall i :: iii <= i < OUTPUT_SIZE ==> avg[i] == ColumnSum(fs, i)
    {
      avg := avg[iii := avg[iii] / (|fs| as real)];
      iii := iii + 1;
    }
  }

  /** A ring: AVERAGING_LEVEL recent forecasts, then their mean. */
  type Ring = seq<Forecast>

  /** The ring before any epoch has written to it. */
  function EmptyRing(): (r: Ring)
    ensures |r| == AVERAGING_LEVEL + 1
    ensures forall j :: 0 <= j < |r| ==> r[j] == []
  {
    seq(AVERAGING_LEVEL + 1, j => [])
  }

  /** Whether the mean slot is refreshed at the end of epoch `e`. */
  predicate Averages(e: nat)
  {
    e >= AVERAGING_LEVEL && e % FREQ_OF_TEST == 0
  }

  /** Records epoch `e`'s forecast: it replaces the one AVERAGING_LEVEL epochs
      back, and from epoch AVERAGING_LEVEL on the mean slot is recomputed. */
  function Record(ring: Ring, e: nat, f: Forecast): (r: Ring)
    requires |ring| == AVERAGING_LEVEL + 1 && Shaped(f)
    requires e >= AVERAGING_LEVEL ==> forall j :: 0 <= j < AVERAGING_LEVEL ==> Shaped(ring[j])
    ensures |r| == AVERAGING_LEVEL + 1
    ensures r[e % AVERAGING_LEVEL] == f
    ensures forall j :: 0 <= j < AVERAGING_LEVEL && j != e % AVERAGING_LEVEL ==> r[j] == ring[j]
    ensures Averages(e) ==> r[AVERAGING_LEVEL] == Average(r[..AVERAGING_LEVEL])
    ensures !Averages(e) ==> r[AVERAGING_LEVEL] == ring[AVERAGING_LEVEL]
  {
    var w := ring[e % AVERAGING_LEVEL := f];
    if Averages(e) then w[AVERAGING_LEVEL := Average(w[..AVERAGING_LEVEL])] else w
  }

  /** The ring after epochs 0 .. |fs|-1 recorded the forecasts fs. */
  function Replay(fs: seq<Forecast>): (r: Ring)
    requires AllShaped(fs)
    ensures |r| == AVERAGING_LEVEL + 1
    ensures forall j :: 0 <= j < AVERAGING_LEVEL && j < |fs| ==> Shaped(r[j])
  {
    if fs == [] then EmptyRing()
    else Record(Replay(fs[..|fs| - 1]), |fs| - 1, fs[|fs| - 1])
  }

  /** The latest epoch up to `e` that wrote ring slot `j`. */
  function Latest(e: nat, j: nat): (t: nat)
    requires j < AVERAGING_LEVEL && j <= e
    ensures j <= t <= e && e - t < AVERAGING_LEVEL && t % AVERAGING_LEVEL == j
  {
    e - (e - j) % AVERAGING_LEVEL
  }

  lemma LatestStep(e: nat, j: nat)
    requires j < AVERAGING_LEVEL && j <= e
    ensures j == e % AVERAGING_LEVEL ==> Latest(e, j) == e
    ensures j != e % AVERAGING_LEVEL ==> j <= e - 1 && Latest(e, j) == Latest(e - 1, j)
  {
  }

  /** Slot j < AVERAGING_LEVEL holds the forecast of the latest epoch that
      wrote it, and is still empty if no epoch has. */
  lemma {:induction false} ReplaySlots(fs: seq<Forecast>)
    requires AllShaped(fs)
    ensures forall j :: 0 <= j < AVERAGING_LEVEL ==>
      Replay(fs)[j] == if j < |fs| then fs[Latest(|fs| - 1, j)] else []
  {
    if fs != [] {
      var e := |fs| - 1;
      var prev := fs[..e];
      ReplaySlots(prev);
      forall j | 0 <= j < AVERAGING_LEVEL
        ensures Replay(fs)[j] == if j < |fs| then fs[Latest(e, j)] else []
      {
        if j <= e {
          LatestStep(e, j);
        }
      }
    }
  }

  /** The mean slot stays empty until epoch AVERAGING_LEVEL. */
  lemma {:induction false} ReplayMeanUnset(fs: seq<Forecast>)
    requires AllShaped(fs) && |fs| <= AVERAGING_LEVEL
    ensures Replay(fs)[AVERAGING_LEVEL] == []
  {
    if fs != [] {
      ReplayMeanUnset(fs[..|fs| - 1]);
    }
  }

  /** The last AVERAGING_LEVEL forecasts. */
  function LastK(fs: seq<Forecast>): (w: seq<Forecast>)
    requires AllShaped(fs) && |fs| >= AVERAGING_LEVEL
    ensures |w| == AVERAGING_LEVEL && AllShaped(w)
    ensures forall m :: 0 <= m < AVERAGING_LEVEL ==> w[m] == fs[|fs| - AVERAGING_LEVEL + m]
  {
    fs[|fs| - AVERAGING_LEVEL..]
  }

  /** Slots holding, for each j, the latest forecast written to slot j are
      the last AVERAGING_LEVEL forecasts rotated so that epoch t sits in slot
      t % AVERAGING_LEVEL. */
  lemma RotatedWindow(slots: seq<Forecast>, fs: seq<Forecast>)
    requires AllShaped(fs) && |fs| > AVERAGING_LEVEL && |slots| == AVERAGING_LEVEL
    requires forall j :: 0 <= j < AVERAGING_LEVEL ==> slots[j] == fs[Latest(|fs| - 1, j)]
    ensures var s := AVERAGING_LEVEL - 1 - (|fs| - 1) % AVERAGING_LEVEL;
      slots == LastK(fs)[s..] + LastK(fs)[..s]
  {
    var e := |fs| - 1;
    var w := LastK(fs);
    var s := AVERAGING_LEVEL - 1 - e % AVERAGING_LEVEL;
    var rotated := w[s..] + w[..s];
    forall j | 0 <= j < AVERAGING_LEVEL
      ensures slots[j] == rotated[j]
    {
      RotationIndex(e, j);
      if j < AVERAGING_LEVEL - s {
        assert rotated[j] == w[s + j];
      } else {
        assert rotated[j] == w[j - (AVERAGING_LEVEL - s)];
      }
    }
  }

  lemma RotationIndex(e: nat, j: nat)
    requires j < AVERAGING_LEVEL <= e
    ensures var s := AVERAGING_LEVEL - 1 - e % AVERAGING_LEVEL;
      && (j < AVERAGING_LEVEL - s ==> Latest(e, j) == e + 1 - AVERAGING_LEVEL + s + j)
      && (j >= AVERAGING_LEVEL - s ==> Latest(e, j) == e + 1 - AVERAGING_LEVEL + j - (AVERAGING_LEVEL - s))
  {
  }

  /** From epoch AVERAGING_LEVEL on, the mean slot holds the element-wise mean
      of the last AVERAGING_LEVEL forecasts. */
  lemma ReplayMean(fs: seq<Forecast>)
    requires AllShaped(fs) && |fs| > AVERAGING_LEVEL
    ensures Replay(fs)[AVERAGING_LEVEL] == Average(LastK(fs))
  {
    var w := LastK(fs);
    var s := AVERAGING_LEVEL - 1 - (|fs| - 1) % AVERAGING_LEVEL;
    var slots := Replay(fs)[..AVERAGING_LEVEL];
    MeanSlotAverages(fs);
    ReplaySlots(fs);
    RotatedWindow(slots, fs);
    AverageRotation(w, s);
  }

  /** Past epoch AVERAGING_LEVEL - 1 the latest epoch averaged, so the mean
      slot is the average of the ring slots in index order. */
  lemma MeanSlotAverages(fs: seq<Forecast>)
    requires AllShaped(fs) && |fs| > AVERAGING_LEVEL
    ensures AllShaped(Replay(fs)[..AVERAGING_LEVEL])
    ensures Replay(fs)[AVERAGING_LEVEL] == Average(Replay(fs)[..AVERAGING_LEVEL])
  {
    assert Averages(|fs| - 1);
  }

  /** The ranked networks' mean slots hold forecasts. */
  predicate MeansReady(rings: seq<Ring>, ranking: seq<int>)
  {
    && |ranking| == TOPN
    && (forall k :: 0 <= k < TOPN ==> 0 <= ranking[k] < |rings|)
    && (forall k :: 0 <= k < TOPN ==>
      |rings[ranking[k]]| == AVERAGING_LEVEL + 1 && Shaped(rings[ranking[k]][AVERAGING_LEVEL]))
  }

  /** The final forecast of a series: the mean of the averaged slots of its
      top TOPN networks, in ranking order. */
  function TopNForecast(rings: seq<Ring>, ranking: seq<int>): (r: Forecast)
    requires MeansReady(rings, ranking)
    ensures Shaped(r)
  {
    Average(MeanSlots(rings, ranking))
  }

  /** The averaged slots of the ranked networks, in ranking order. */
  function MeanSlots(rings: seq<Ring>, ranking: seq<int>): (m: seq<Forecast>)
    requires MeansReady(rings, ranking)
    ensures |m| == TOPN && AllShaped(m)
    ensures forall k :: 0 <= k < TOPN ==> m[k] == rings[ranking[k]][AVERAGING_LEVEL]
  {
    seq(TOPN, k requires 0 <= k < TOPN => rings[ranking[k]][AVERAGING_LEVEL])
  }

  /** Every network's ring replayed from its own forecast history. */
  function ReplayAll(history: seq<seq<Forecast>>): (rings: seq<Ring>)
    requires forall n :: 0 <= n < |history| ==> AllShaped(history[n])
    ensures |rings| == |history|
    ensures forall n :: 0 <= n < |history| ==> rings[n] == Replay(history[n])
  {
    seq(|history|, n requires 0 <= n < |history| => Replay(history[n]))
  }

  /** Once every network has run more than AVERAGING_LEVEL epochs, the final
      forecast is the mean, over the top networks, of the mean of each one's
      last AVERAGING_LEVEL forecasts. */
  lemma TopNOfReplays(history: seq<seq<Forecast>>, ranking: seq<int>)
    requires |ranking| == TOPN
    requires forall k :: 0 <= k < TOPN ==> 0 <= ranking[k] < |history|
    requires forall n :: 0 <= n < |history| ==> AllShaped(history[n]) && |history[n]| > AVERAGING_LEVEL
    ensures TopNForecast(ReplayAll(history), ranking) ==
      Average(seq(TOPN, k requires 0 <= k < TOPN => Average(LastK(history[ranking[k]]))))
  {
    var rings := ReplayAll(history);
    forall k | 0 <= k < TOPN
      ensures MeanSlots(rings, ranking)[k] == Average(LastK(history[ranking[k]]))
    {
      ReplayMean(history[ranking[k]]);
    }
    assert MeanSlots(rings, ranking) == seq(TOPN, k requires 0 <= k < TOPN => Average(LastK(history[ranking[k]])));
  }

  /** The final forecast stays within the range of the forecasts that went
      into it. */
  lemma TopNWithinRange(history: seq<seq<Forecast>>, ranking: seq<int>, lo: real, hi: real)
    requires |ranking| == TOPN
    requires forall k :: 0 <= k < TOPN ==> 0 <= ranking[k] < |history|
    requires forall n :: 0 <= n < |history| ==> AllShaped(history[n]) && |history[n]| > AVERAGING_LEVEL
    requires forall n, t, i :: 0 <= n < |history| && 0 <= t < |history[n]| && 0 <= i < |history[n][t]| ==>
      lo <= history[n][t][i] <= hi
    ensures forall i :: 0 <= i < OUTPUT_SIZE ==> lo <= TopNForecast(ReplayAll(history), ranking)[i] <= hi
  {
    var rings := ReplayAll(history);
    var means := MeanSlots(rings, ranking);
    forall k | 0 <= k < TOPN
      ensures forall i :: 0 <= i < OUTPUT_SIZE ==> lo <= means[k][i] <= hi
    {
      var fs := history[ranking[k]];
      ReplayMean(fs);
      AverageBounds(LastK(fs), lo, hi);
    }
    AverageBounds(means, lo, hi);
  }
}

=== FILE: ranking.dfy ===
/** Ranking of the networks for one series: the `topN` networks with the
    smallest validation loss, chosen by repeated scan-and-remove. */
module Ranking {
  import opened Config

  /** Entry k of `r` is the network a scan picks once r[..k] is removed: the
      smallest loss among the remaining networks, lowest index first on ties. */
  ghost predicate PickedAt(perf: seq<real>, r: seq<int>, k: int)
    requires 0 <= k < |r|
  {
    && 0 <= r[k] < |perf|
    && r[k] !in r[..k]
    && forall j :: 0 <= j < |perf| && j !in r[..k] ==>
         perf[r[k]] < perf[j] || (perf[r[k]] == perf[j] && r[k] <= j)
  }

  /** `r` is the ranking the scan-and-remove selection produces. */
  ghost predicate IsRanking(perf: seq<real>, topN: nat, r: seq<int>)
  {
    && |r| == topN
    && (forall k :: 0 <= k < |r| ==> 0 <= r[k] < |perf|)
    && (forall k :: 0 <= k < |r| ==> PickedAt(perf, r, k))
  }

  /** The networks whose loss is below the "already taken" sentinel; only
      these can ever be picked. */
  function BelowSentinel(perf: seq<real>): set<int>
  {
    set i | 0 <= i < |perf| && perf[i] < BIG_FLOAT
  }

  /** At least `topN` losses are below the sentinel, so every one of the
      `topN` scans finds a network and never records index -1. */
  predicate EnoughBelow(perf: seq<real>, topN: nat)
  {
    topN <= |BelowSentinel(perf)|
  }

  /** A sequence of n entries names at most n different values. */
  lemma {:induction false} ElementsBound(taken: seq<int>)
    ensures |set x | x in taken| <= |taken|
  {
    if taken != [] {
      var t := taken[..|taken| - 1];
      ElementsBound(t);
      assert taken == t + [taken[|taken| - 1]];
      assert (set x | x in taken) == (set x | x in t) + {taken[|taken| - 1]};
    }
  }

  lemma SubsetCard(a: set<int>, b: set<int>)
    requires a <= b
    ensures |a| <= |b|
  {
    assert b == a + (b - a);
  }

  /** Fewer taken indices than losses below the sentinel leave one such
      network untaken. */
  lemma UntakenBelow(perf: seq<real>, taken: seq<int>) returns (j: int)
    requires |taken| < |BelowSentinel(perf)|
    ensures 0 <= j < |perf| && perf[j] < BIG_FLOAT && j !in taken
  {
    var below := BelowSentinel(perf);
    var used := set x | x in taken;
    ElementsBound(taken);
    if below <= used {
      SubsetCard(below, used);
      assert false;
    }
    j :| j in below && j !in used;
  }

  /** Fewer than n taken indices leave some index in [0, n) untaken. */
  lemma {:induction false} SomeUntaken(taken: seq<int>, n: nat) returns (j: int)
    requires |taken| < n
    ensures 0 <= j < n && j !in taken
  {
    if n - 1 !in taken {
      j := n - 1;
    } else {
      var i :| 0 <= i < |taken| && taken[i] == n - 1;
      var rest := taken[..i] + taken[i + 1..];
      assert taken == taken[..i] + [taken[i]] + taken[i + 1..];
      j := SomeUntaken(rest, n - 1);
    }
  }

  /** The scan-and-remove selection: `topN` passes, each picking the first
      network whose loss is strictly below the running minimum (which starts
      at BIG_FLOAT) and then marking it taken by setting its loss to
      BIG_FLOAT.  Positions topN .. |perf|-1 of the source's result array are
      never written and are not part of the result. */
  method PerfToRanking(perf: seq<real>, topN: nat) returns (index: seq<int>)
    requires EnoughBelow(perf, topN)
    ensures IsRanking(perf, topN, index)
  {
    var work := perf;
    index := [];
    var itop := 0;
    while itop < topN
      invariant 0 <= itop <= topN
      invariant |index| == itop && |work| == |perf|
      invariant forall k :: 0 <= k < |index| ==> 0 <= index[k] < |perf|
      invariant forall j :: 0 <= j < |perf| ==> work[j] == (if j in index then BIG_FLOAT else perf[j])
      invariant forall k :: 0 <= k < |index| ==> PickedAt(perf, index, k)
    {
      var currMin := BIG_FLOAT;
      var indexOfMin := -1;
      var i := 0;
      while i < |work|
        invariant 0 <= i <= |work|
        invariant -1 <= indexOfMin < i
        invariant indexOfMin == -1 ==> currMin == BIG_FLOAT
        invariant indexOfMin >= 0 ==> currMin == work[indexOfMin] < BIG_FLOAT
        invariant forall j :: 0 <= j < i ==> currMin <= work[j]
        invariant forall j :: 0 <= j < indexOfMin ==> currMin < work[j]
      {
        if work[i] < currMin {
          currMin := work[i];
          indexOfMin := i;
        }
        i := i + 1;
      }
      var free := UntakenBelow(perf, index);
      assert work[free] < BIG_FLOAT;
      assert indexOfMin >= 0;
      assert indexOfMin !in index;
      var index' := index + [indexOfMin];
      assert index'[..itop] == index;
      forall k | 0 <= k < |index'|
        ensures PickedAt(perf, index', k)
      {
        if k < itop {
          assert index'[..k] == index[..k];
          assert PickedAt(perf, index, k);
        } else {
          forall j | 0 <= j < |perf| && j !in index'[..k]
            ensures perf[index'[k]] < perf[j] || (perf[index'[k]] == perf[j] && index'[k] <= j)
          {
            assert work[j] == perf[j];
          }
        }
      }
      index := index';
      work := work[indexOfMin := BIG_FLOAT];
      itop := itop + 1;
    }
  }

  /** A ranking lists distinct networks, each a valid network index. */
  lemma RankingDistinct(perf: seq<real>, topN: nat, r: seq<int>)
    requires IsRanking(perf, topN, r)
    ensures forall k :: 0 <= k < |r| ==> 0 <= r[k] < |perf|
    ensures forall a, b :: 0 <= a < b < |r| ==> r[a] != r[b]
  {
    forall a, b | 0 <= a < b < |r|
      ensures r[a] != r[b]
    {
      assert PickedAt(perf, r, b);
      assert r[a] == r[..b][a];
    }
  }

  /** A ranking is in nondecreasing order of loss, equal losses in increasing
      network index, and every chosen network's loss is at most every unchosen
      network's loss. */
  lemma RankingOrdered(perf: seq<real>, topN: nat, r: seq<int>)
    requires IsRanking(perf, topN, r)
    ensures forall a, b :: 0 <= a < b < |r| ==> perf[r[a]] <= perf[r[b]]
    ensures forall a, b :: 0 <= a < b < |r| && perf[r[a]] == perf[r[b]] ==> r[a] < r[b]
    ensures forall k, j :: 0 <= k < |r| && 0 <= j < |perf| && j !in r ==> perf[r[k]] <= perf[j]
  {
    RankingDistinct(perf, topN, r);
    forall a, b | 0 <= a < b < |r|
      ensures perf[r[a]] <= perf[r[b]]
      ensures perf[r[a]] == perf[r[b]] ==> r[a] < r[b]
    {
      assert PickedAt(perf, r, a);
      assert PickedAt(perf, r, b);
      assert r[..b] == r[..a] + r[a..b];
    }
    forall k, j | 0 <= k < |r| && 0 <= j < |perf| && j !in r
      ensures perf[r[k]] <= perf[j]
    {
      assert PickedAt(perf, r, k);
      assert j !in r[..k];
    }
  }

  /** The ranking is determined by the losses: two rankings of the same
      length agree entry by entry. */
  lemma {:induction false} RankingUnique(perf: seq<real>, topN: nat, r1: seq<int>, r2: seq<int>)
    requires IsRanking(perf, topN, r1) && IsRanking(perf, topN, r2)
    ensures r1 == r2
  {
    var k := 0;
    while k < topN
      invariant 0 <= k <= topN
      invariant r1[..k] == r2[..k]
    {
      assert PickedAt(perf, r1, k) && PickedAt(perf, r2, k);
      assert r1[k] !in r2[..k] && r2[k] !in r1[..k];
      assert r1[..k + 1] == r1[..k] + [r1[k]];
      assert r2[..k + 1] == r2[..k] + [r2[k]];
      k := k + 1;
    }
    assert r1 == r1[..topN] && r2 == r2[..topN];
  }

  /** On equal losses the ranking is the topN lowest network indices in order. */
  lemma RankingOfEqualLosses(perf: seq<real>, topN: nat, r: seq<int>)
    requires topN <= |perf|
    requires IsRanking(perf, topN, r)
    requires forall i :: 0 <= i < |perf| ==> perf[i] == perf[0]
    ensures forall k :: 0 <= k < |r| ==> r[k] == k
  {
    var ids := seq(topN, i => i);
    assert IsRanking(perf, topN, ids) by {
      forall k | 0 <= k < topN
        ensures PickedAt(perf, ids, k)
      {
        forall c | 0 <= c < k
          ensures c in ids[..k]
        {
          assert ids[..k][c] == c;
        }
      }
    }
    RankingUnique(perf, topN, r, ids);
  }
}

=== FILE: seasonality.dfy ===
/** Index structure of the level/seasonality recurrence.  The numeric update
    rules (logistic smoothing weights, divisions, exponentials) are abstracted
    into functions of a record; what is modelled is which earlier entries each
    new entry is computed from, the lengths, and the periodic extension over
    the forecast horizon. */
module Seasonality {

  /** A single-seasonality recurrence over seasonal indices `T` and levels `L`.
      `start(s)` is the level at time 0 from the seasonal index in force at 0;
      `level(t, s, prev)` the level at time t from the seasonal index in force
      at t and the level at t - 1; `season(t, lev, s)` the seasonal index for
      time t + P from the level at t and the index in force at t.  The
      observation at time t is captured through the argument t. */
  datatype Recurrence<!T, !L> = Recurrence(start: T -> L, level: (nat, T, L) -> L, season: (nat, L, T) -> T)

  /** Levels (one per observation) and the seasonal sequence (entry t is the
      seasonal index in force at time t). */
  datatype Decomposition<T, L> = Decomposition(levels: seq<L>, seasons: seq<T>)

  /** The recurrence run over times 0 .. k-1 on the growing sequence: the P
      seeds plus a duplicate of seed 0, then one entry appended per time
      step t >= 1, written at index P + t from the entry at index t. */
  function Grow<T, L>(seeds: seq<T>, k: nat, rec: Recurrence<T, L>): (d: Decomposition<T, L>)
    requires |seeds| > 0 && k >= 1
    ensures |d.levels| == k && |d.seasons| == |seeds| + k
    ensures d.seasons[..|seeds|] == seeds && d.seasons[|seeds|] == seeds[0]
    ensures d.levels[0] == rec.start(seeds[0])
    ensures forall t :: 1 <= t < k ==> d.levels[t] == rec.level(t, d.seasons[t], d.levels[t - 1])
    ensures forall t :: 1 <= t < k ==>
      d.seasons[|seeds| + t] == rec.season(t, d.levels[t], d.seasons[t])
    decreases k
  {
    if k == 1 then Decomposition([rec.start(seeds[0])], seeds + [seeds[0]])
    else
      var d := Grow(seeds, k - 1, rec);
      var t := k - 1;
      var lev := rec.level(t, d.seasons[t], d.levels[t - 1]);
      Decomposition(d.levels + [lev], d.seasons + [rec.season(t, lev, d.seasons[t])])
  }

  /** The same recurrence kept in a circular buffer of size P: slot t % P holds
      the seasonal index in force at time t and is overwritten by the index
      for time t + P. */
  datatype RingRun<T, L> = RingRun(levels: seq<L>, ring: seq<T>)

  function RingGrow<T, L>(seeds: seq<T>, k: nat, rec: Recurrence<T, L>): (r: RingRun<T, L>)
    requires |seeds| > 0 && k >= 1
    ensures |r.levels| == k && |r.ring| == |seeds|
    decreases k
  {
    if k == 1 then RingRun([rec.start(seeds[0])], seeds)
    else
      var r := RingGrow(seeds, k - 1, rec);
      var t := k - 1;
      var slot := t % |seeds|;
      var lev := rec.level(t, r.ring[slot], r.levels[t - 1]);
      RingRun(r.levels + [lev], r.ring[slot := rec.season(t, lev, r.ring[slot])])
  }

  /** Division and remainder are determined by any decomposition a == q*p + r with 0 <= r < p. */
  lemma DivModUnique(a: int, p: int, q: int, r: int)
    requires p > 0 && 0 <= r < p && a == q * p + r
    ensures a / p == q && a % p == r
  {
    var q0, r0 := a / p, a % p;
    assert a == q0 * p + r0;
    var d := q - q0;
    assert d * p == r0 - r by {
      assert q * p - q0 * p == (q - q0) * p;
    }
    MulBound(d, p);
  }

  lemma MulBound(d: int, p: int)
    requires p > 0
    ensures d >= 1 ==> d * p >= p
    ensures d <= -1 ==> d * p <= -p
  {
    if d >= 1 {
      assert d * p == (d - 1) * p + p;
      assert (d - 1) * p >= 0;
    } else if d <= -1 {
      assert d * p == (d + 1) * p - p;
      assert (d + 1) * p <= 0;
    }
  }

  lemma ModShift(t: nat, p: nat)
    requires p > 0
    ensures (t + p) % p == t % p
  {
    assert t == (t / p) * p + t % p;
    assert t + p == (t / p + 1) * p + t % p;
    DivModUnique(t + p, p, t / p + 1, t % p);
  }

  lemma ModDistinct(t: nat, u: nat, p: nat)
    requires p > 0 && t < u < t + p
    ensures u % p != t % p
  {
    var q, r, d := t / p, t % p, u - t;
    assert t == q * p + r;
    if r + d < p {
      DivModUnique(u, p, q, r + d);
    } else {
      assert u == (q + 1) * p + (r + d - p);
      DivModUnique(u, p, q + 1, r + d - p);
    }
  }

  /** After time 0 alone the buffer is the seeds, which are the growing
      sequence's entries for times 1 .. P. */
  lemma RingMatchesGrowingStart<T, L>(seeds: seq<T>, rec: Recurrence<T, L>)
    requires |seeds| > 0
    ensures forall t :: 1 <= t < 1 + |seeds| ==>
      RingGrow(seeds, 1, rec).ring[t % |seeds|] == Grow(seeds, 1, rec).seasons[t]
  {
    var p := |seeds|;
    var r := RingGrow(seeds, 1, rec);
    var g := Grow(seeds, 1, rec);
    forall t | 1 <= t < 1 + p
      ensures r.ring[t % p] == g.seasons[t]
    {
      if t < p {
        assert t % p == t;
        assert g.seasons[..p][t] == g.seasons[t];
      } else {
        assert t % p == 0;
      }
    }
  }

  /** One time step keeps the buffer and the growing sequence in agreement. */
  lemma RingMatchesGrowingStep<T, L>(seeds: seq<T>, k: nat, rec: Recurrence<T, L>)
    requires |seeds| > 0 && k >= 2
    requires RingGrow(seeds, k - 1, rec).levels == Grow(seeds, k - 1, rec).levels
    requires forall t :: k - 1 <= t < k - 1 + |seeds| ==>
      RingGrow(seeds, k - 1, rec).ring[t % |seeds|] == Grow(seeds, k - 1, rec).seasons[t]
    ensures RingGrow(seeds, k, rec).levels == Grow(seeds, k, rec).levels
    ensures forall t :: k <= t < k + |seeds| ==>
      RingGrow(seeds, k, rec).ring[t % |seeds|] == Grow(seeds, k, rec).seasons[t]
  {
    var p := |seeds|;
    var r0, g0 := RingGrow(seeds, k - 1, rec), Grow(seeds, k - 1, rec);
    var r, g := RingGrow(seeds, k, rec), Grow(seeds, k, rec);
    var t := k - 1;
    var slot := t % p;
    assert r0.ring[slot] == g0.seasons[t];
    forall u | k <= u < k + p
      ensures r.ring[u % p] == g.seasons[u]
    {
      if u == t + p {
        ModShift(t, p);
      } else {
        ModDistinct(t, u, p);
        assert r.ring[u % p] == r0.ring[u % p];
        assert g.seasons[u] == g0.seasons[u];
      }
    }
  }

  /** The growing sequence and the circular buffer are equivalent: they give
      the same levels, and after times 0 .. k-1 the buffer holds exactly the
      seasonal indices for times k .. k+P-1 of the growing sequence. */
  lemma {:induction false} RingMatchesGrowing<T, L>(seeds: seq<T>, k: nat, rec: Recurrence<T, L>)
    requires |seeds| > 0 && k >= 1
    ensures RingGrow(seeds, k, rec).levels == Grow(seeds, k, rec).levels
    ensures forall t :: k <= t < k + |seeds| ==>
      RingGrow(seeds, k, rec).ring[t % |seeds|] == Grow(seeds, k, rec).seasons[t]
    decreases k
  {
    if k == 1 {
      RingMatchesGrowingStart(seeds, rec);
    } else {
      RingMatchesGrowing(seeds, k - 1, rec);
      RingMatchesGrowingStep(seeds, k, rec);
    }
  }

  /** Appends `count - i` entries, the j-th read from index `start + j` of the
      sequence as it grows. */
  function AppendFrom<T>(s: seq<T>, start: nat, i: nat, count: nat): (r: seq<T>)
    requires i <= count && start + i < |s|
    decreases count - i
  {
    if i == count then s else AppendFrom(s + [s[start + i]], start, i + 1, count)
  }

  lemma {:induction false} AppendFromPeriodic<T>(s: seq<T>, start: nat, i: nat, count: nat, p: nat)
    requires i <= count && p > 0 && |s| == start + i + p
    ensures var r := AppendFrom(s, start, i, count);
      && |r| == |s| + (count - i)
      && r[..|s|] == s
      && forall j :: |s| <= j < |r| ==> r[j] == r[j - p]
    decreases count - i
  {
    if i < count {
      var s' := s + [s[start + i]];
      AppendFromPeriodic(s', start, i + 1, count, p);
      var r := AppendFrom(s', start, i + 1, count);
      assert r[..|s'|][..|s|] == s;
      assert r[|s|] == s'[|s|] == s[|s| - p];
      assert r[|s| - p] == r[..|s'|][|s| - p];
    }
  }

  /** When the horizon is longer than the period, the seasonal sequence is
      extended by repeating its last full period until it covers the horizon. */
  function ExtendOverHorizon<T>(seasons: seq<T>, p: nat, horizon: nat): (r: seq<T>)
    requires 0 < p <= |seasons|
    ensures |r| == |seasons| + (if horizon > p then horizon - p else 0)
    ensures r[..|seasons|] == seasons
    ensures forall j :: |seasons| <= j < |r| ==> r[j] == r[j - p]
  {
    if horizon > p then
      AppendFromPeriodic(seasons, |seasons| - p, 0, horizon - p, p);
      AppendFrom(seasons, |seasons| - p, 0, horizon - p)
    else seasons
  }

  function Max(a: int, b: int): int
  {
    if a >= b then a else b
  }

  /** The seasonal sequence for a series of `m` observations: grown over the
      series and extended over the horizon. */
  function SeasonalIndices<T, L>(seeds: seq<T>, m: nat, rec: Recurrence<T, L>, horizon: nat): (r: seq<T>)
    requires |seeds| > 0 && m >= 1
    ensures |r| == m + Max(horizon, |seeds|)
    ensures r[..|seeds|] == seeds && r[|seeds|] == r[0]
    ensures forall t :: 1 <= t < m ==>
      r[|seeds| + t] == rec.season(t, Grow(seeds, m, rec).levels[t], r[t])
    ensures forall j :: |seeds| + m <= j < |r| ==> r[j] == r[j - |seeds|]
  {
    var g := Grow(seeds, m, rec);
    var r := ExtendOverHorizon(g.seasons, |seeds|, horizon);
    assert forall j :: 0 <= j < |g.seasons| ==> r[j] == r[..|g.seasons|][j] == g.seasons[j];
    assert r[..|seeds|] == g.seasons[..|seeds|];
    r
  }

  /** The seasonal window [m, m+H) of the final forecast, made at the last
      observed time m - 1: it lies inside the sequence, and past one period
      it repeats the entries one period earlier. */
  lemma FinalWindowPeriodic<T, L>(seeds: seq<T>, m: nat, rec: Recurrence<T, L>, horizon: nat)
    requires |seeds| > 0 && m >= 1
    ensures m + horizon <= |SeasonalIndices(seeds, m, rec, horizon)|
    ensures var w := SeasonalIndices(seeds, m, rec, horizon)[m..m + horizon];
      forall j :: |seeds| <= j < |w| ==> w[j] == w[j - |seeds|]
  {
    var s := SeasonalIndices(seeds, m, rec, horizon);
    var w := s[m..m + horizon];
    forall j | |seeds| <= j < |w|
      ensures w[j] == w[j - |seeds|]
    {
      assert w[j] == s[m + j] && w[j - |seeds|] == s[m + j - |seeds|];
    }
  }

  /** Input window [i+1-size, i+1) lies inside a sequence of length `len`. */
  predicate InputFits(len: int, i: int, size: int)
  {
    0 <= i + 1 - size && i + 1 <= len
  }

  /** Output window [i+1, i+1+horizon) lies inside a sequence of length `len`. */
  predicate OutputFits(len: int, i: int, horizon: int)
  {
    0 <= i + 1 && i + 1 + horizon <= len
  }

  /** `a - b` where `b` is an unsigned 32-bit constant: C++ converts the int
      `a` to unsigned, so the difference wraps modulo 2^32. */
  function UnsignedSub(a: int, b: nat): (r: int)
    ensures 0 <= r < 0x1_0000_0000
    ensures 0 <= b <= a < 0x1_0000_0000 ==> r == a - b
    ensures 0 <= a < b < 0x1_0000_0000 ==> r == a - b + 0x1_0000_0000
  {
    (a - b) % 0x1_0000_0000
  }

  /** Every window the training and validation passes read lies inside the
      m observations and the seasonal sequence: input windows for
      I-1 <= i < m, label windows for I-1 <= i below the unsigned bound
      m - H, and the final reseasonalisation window at i = m - 1.  The label
      bound needs m >= H, which every stored series meets since its length
      is at least MIN_SERIES_LENGTH. */
  lemma WindowsInBounds<T, L>(seeds: seq<T>, m: nat, rec: Recurrence<T, L>, horizon: nat, inputSize: nat)
    requires |seeds| > 0 && m >= 1 && inputSize >= 1
    requires horizon <= m < 0x1_0000_0000
    ensures var len := |SeasonalIndices(seeds, m, rec, horizon)|;
      && (forall i :: inputSize - 1 <= i < m ==> InputFits(m, i, inputSize) && InputFits(len, i, inputSize))
      && (forall i :: inputSize - 1 <= i < UnsignedSub(m, horizon) ==>
            OutputFits(m, i, horizon) && OutputFits(len, i, horizon))
      && OutputFits(len, m - 1, horizon)
  {
  }

  /** Without that premise the unsigned bound wraps past m: a series
      shorter than the horizon would have the label loop run beyond its
      last observation. */
  lemma ShortSeriesOverruns(m: nat, horizon: nat, inputSize: nat)
    requires inputSize >= 1 && inputSize - 1 <= m < horizon < 0x1_0000_0000
    ensures inputSize - 1 <= m < UnsignedSub(m, horizon)
    ensures !OutputFits(m, m, horizon)
  {
  }

  /** Double seasonality: two seasonal sequences of periods P1 and P2.  Each
      level divides by both indices in force; each new seasonal index reads
      its own sequence one period back and the other sequence's index in
      force at the same time. */
  datatype Recurrence2<!T, !L> = Recurrence2(
    start: (T, T) -> L,
    level: (nat, T, T, L) -> L,
    season1: (nat, L, T, T) -> T,
    season2: (nat, L, T, T) -> T)

  datatype Decomposition2<T, L> = Decomposition2(levels: seq<L>, seasons1: seq<T>, seasons2: seq<T>)

  function Grow2<T, L>(seeds1: seq<T>, seeds2: seq<T>, k: nat, rec: Recurrence2<T, L>): (d: Decomposition2<T, L>)
    requires |seeds1| > 0 && |seeds2| > 0 && k >= 1
    ensures |d.levels| == k && |d.seasons1| == |seeds1| + k && |d.seasons2| == |seeds2| + k
    ensures d.seasons1[..|seeds1|] == seeds1 && d.seasons1[|seeds1|] == seeds1[0]
    ensures d.seasons2[..|seeds2|] == seeds2 && d.seasons2[|seeds2|] == seeds2[0]
    ensures d.levels[0] == rec.start(seeds1[0], seeds2[0])
    decreases k
  {
    if k == 1 then
      Decomposition2([rec.start(seeds1[0], seeds2[0])], seeds1 + [seeds1[0]], seeds2 + [seeds2[0]])
    else
      var d := Grow2(seeds1, seeds2, k - 1, rec);
      var t := k - 1;
      var lev := rec.level(t, d.seasons1[t], d.seasons2[t], d.levels[t - 1]);
      Decomposition2(
        d.levels + [lev],
        d.seasons1 + [rec.season1(t, lev, d.seasons1[t], d.seasons2[t])],
        d.seasons2 + [rec.season2(t, lev, d.seasons2[t], d.seasons1[t])])
  }

  /** The level and both seasonal sequences follow the double recurrence:
      step t reads the level of step t-1 and the seasonal entries at t, and
      appends the entries one period later. */
  ghost predicate Follows2<T, L>(d: Decomposition2<T, L>, p1: nat, p2: nat, k: nat, rec: Recurrence2<T, L>)
    requires |d.levels| == k && |d.seasons1| == p1 + k && |d.seasons2| == p2 + k
  {
    forall t :: 1 <= t < k ==>
      && d.levels[t] == rec.level(t, d.seasons1[t], d.seasons2[t], d.levels[t - 1])
      && d.seasons1[p1 + t] == rec.season1(t, d.levels[t], d.seasons1[t], d.seasons2[t])
      && d.seasons2[p2 + t] == rec.season2(t, d.levels[t], d.seasons2[t], d.seasons1[t])
  }

  lemma {:induction false} Grow2Equations<T, L>(seeds1: seq<T>, seeds2: seq<T>, k: nat, rec: Recurrence2<T, L>)
    requires |seeds1| > 0 && |seeds2| > 0 && k >= 1
    ensures Follows2(Grow2(seeds1, seeds2, k, rec), |seeds1|, |seeds2|, k, rec)
  {
    if k > 1 {
      Grow2Equations(seeds1, seeds2, k - 1, rec);
      var d := Grow2(seeds1, seeds2, k - 1, rec);
      var r := Grow2(seeds1, seeds2, k, rec);
      var p1, p2 := |seeds1|, |seeds2|;
      assert Follows2(d, p1, p2, k - 1, rec);
      forall t | 1 <= t < k
        ensures r.levels[t] == rec.level(t, r.seasons1[t], r.seasons2[t], r.levels[t - 1])
        ensures r.seasons1[p1 + t] == rec.season1(t, r.levels[t], r.seasons1[t], r.seasons2[t])
        ensures r.seasons2[p2 + t] == rec.season2(t, r.levels[t], r.seasons2[t], r.seasons1[t])
      {
        assert r.levels[t - 1] == d.levels[t - 1];
        assert r.seasons1[t] == d.seasons1[t] && r.seasons2[t] == d.seasons2[t];
        if t < k - 1 {
          assert r.levels[t] == d.levels[t];
          assert r.seasons1[p1 + t] == d.seasons1[p1 + t];
          assert r.seasons2[p2 + t] == d.seasons2[p2 + t];
        } else {
          var lev := rec.level(t, d.seasons1[t], d.seasons2[t], d.levels[t - 1]);
          assert r.levels == d.levels + [lev];
          assert r.seasons1 == d.seasons1 + [rec.season1(t, lev, d.seasons1[t], d.seasons2[t])];
          assert r.seasons2 == d.seasons2 + [rec.season2(t, lev, d.seasons2[t], d.seasons1[t])];
        }
      }
    }
  }

  /** Both seasonal sequences of the double-seasonality recurrence, each
      extended over the horizon with its own period. */
  function DoubleSeasonalIndices<T, L>(seeds1: seq<T>, seeds2: seq<T>, m: nat, rec: Recurrence2<T, L>,
                                       horizon: nat): (r: (seq<T>, seq<T>))
    requires |seeds1| > 0 && |seeds2| > 0 && m >= 1
    ensures |r.0| == m + Max(horizon, |seeds1|) && |r.1| == m + Max(horizon, |seeds2|)
    ensures forall j :: |seeds1| + m <= j < |r.0| ==> r.0[j] == r.0[j - |seeds1|]
    ensures forall j :: |seeds2| + m <= j < |r.1| ==> r.1[j] == r.1[j - |seeds2|]
    ensures r.0[..|seeds1| + m] == Grow2(seeds1, seeds2, m, rec).seasons1
    ensures r.1[..|seeds2| + m] == Grow2(seeds1, seeds2, m, rec).seasons2
  {
    var d := Grow2(seeds1, seeds2, m, rec);
    (ExtendOverHorizon(d.seasons1, |seeds1|, horizon), ExtendOverHorizon(d.seasons2, |seeds2|, horizon))
  }
}

=== FILE: series.dfy ===
/** Series preparation: the per-series record built from one input line
    (category indicator, observations, held-out tail, usable length) and the
    load loop that keeps long-enough series in file order. */
module SeriesPrep {
  import opened Config
  import opened Text

  /** The fixed category vocabulary of the input. */
  datatype Category = Demographic | Finance | Industry | Macro | Micro | Other

  /** The only error of series preparation; it aborts the whole process. */
  datatype Error = UnknownCategory(name: string)

  datatype Result<T> = Success(value: T) | Failure(error: Error)

  /** One prepared series: `n` is the usable length (0 when the series is too
      short for the held-out tail), `testVals` the held-out tail. */
  datatype Series = Series(categories: seq<real>, vals: seq<real>, testVals: seq<real>, n: int)

  /** The outcome of the load loop: the kept ids in file order and the store keyed by id. */
  datatype Loaded = Loaded(ids: seq<string>, store: map<string, Series>)

  function CategoryName(c: Category): string
  {
    match c
    case Demographic => "Demographic"
    case Finance => "Finance"
    case Industry => "Industry"
    case Macro => "Macro"
    case Micro => "Micro"
    case Other => "Other"
  }

  /** Position of the category's 1 in the indicator vector. */
  function Slot(c: Category): nat
  {
    match c
    case Demographic => 0
    case Finance => 1
    case Industry => 2
    case Macro => 3
    case Micro => 4
    case Other => 5
  }

  /** Recognises a category name; any other text is a configuration error. */
  function ParseCategory(name: string): (r: Result<Category>)
    ensures r.Success? ==> CategoryName(r.value) == name
    ensures r.Failure? ==> r.error == UnknownCategory(name)
  {
    if name == "Demographic" then Success(Demographic)
    else if name == "Finance" then Success(Finance)
    else if name == "Industry" then Success(Industry)
    else if name == "Macro" then Success(Macro)
    else if name == "Micro" then Success(Micro)
    else if name == "Other" then Success(Other)
    else Failure(UnknownCategory(name))
  }

  /** Every category name is recognised as that category. */
  lemma ParseCategoryName(c: Category)
    ensures ParseCategory(CategoryName(c)) == Success(c)
  {
  }

  /** The one-hot indicator vector of a category. */
  function OneHot(c: Category): (r: seq<real>)
    ensures |r| == NUM_OF_CATEGORIES
    ensures Slot(c) < |r| && r[Slot(c)] == 1.0
    ensures forall i :: 0 <= i < |r| && i != Slot(c) ==> r[i] == 0.0
  {
    seq(NUM_OF_CATEGORIES, i => if i == Slot(c) then 1.0 else 0.0)
  }

  /** Distinct categories get distinct indicator vectors. */
  lemma OneHotInjective(c1: Category, c2: Category)
    requires OneHot(c1) == OneHot(c2)
    ensures c1 == c2
  {
    assert OneHot(c1)[Slot(c1)] == 1.0;
    assert OneHot(c2)[Slot(c1)] == 1.0;
  }

  predicate IsQuoteOrReturn(c: char)
  {
    c == '"' || c == '\r'
  }

  /** A field with quotes and carriage returns removed. */
  function Clean(field: string): (r: string)
    ensures forall i :: 0 <= i < |r| ==> !IsQuoteOrReturn(r[i])
    ensures forall c {:trigger multiset(r)[c]} :: !IsQuoteOrReturn(c) ==> multiset(r)[c] == multiset(field)[c]
  {
    Filter(field, c => !IsQuoteOrReturn(c))
  }

  /** The cleaned fields up to (not including) the first field that is empty
      after cleaning. */
  function TakeFields(fields: seq<string>): (r: seq<string>)
    ensures |r| <= |fields|
    ensures forall i :: 0 <= i < |r| ==> r[i] == Clean(fields[i]) && r[i] != ""
    ensures |r| < |fields| ==> Clean(fields[|r|]) == ""
  {
    if fields == [] || Clean(fields[0]) == "" then []
    else
      var rest := TakeFields(fields[1..]);
      assert forall i :: 0 <= i < |rest| ==> fields[1..][i] == fields[i + 1];
      [Clean(fields[0])] + rest
  }

  /** The observations of a record: every cleaned field before the first empty
      one, converted by `toNumber` (the text-to-number conversion). */
  function ParseValues(fields: seq<string>, toNumber: string -> real): (r: seq<real>)
    ensures |r| == |TakeFields(fields)|
    ensures forall i :: 0 <= i < |r| ==> r[i] == toNumber(Clean(fields[i]))
  {
    var kept := TakeFields(fields);
    seq(|kept|, i requires 0 <= i < |kept| => toNumber(kept[i]))
  }

  /** Held-out tail extraction for backtesting depth `lback`. */
  function Holdback(vals: seq<real>, lback: int): (s: Series)
    ensures s.categories == []
    // with holdback: the test window is the first horizon of the carved-off tail
    ensures lback > 0 && |vals| > lback * OUTPUT_SIZE ==>
      && |s.testVals| == OUTPUT_SIZE
      && s.n == |s.vals| == |vals| - lback * OUTPUT_SIZE
      && exists rest :: |rest| == (lback - 1) * OUTPUT_SIZE && vals == s.vals + s.testVals + rest
    // too short for the tail: nothing is usable and the values stay as read
    ensures lback > 0 && |vals| <= lback * OUTPUT_SIZE ==> s.n == 0 && s.vals == vals && s.testVals == []
    // final mode: everything is usable
    ensures lback <= 0 ==> s.n == |vals| && s.vals == vals && s.testVals == []
  {
    if lback > 0 then
      if |vals| > lback * OUTPUT_SIZE then
        var first := |vals| - lback * OUTPUT_SIZE;
        var pastLast := |vals| - (lback - 1) * OUTPUT_SIZE;
        assert vals == vals[..first] + vals[first..pastLast] + vals[pastLast..];
        Series([], vals[..first], vals[first..pastLast], first)
      else
        Series([], vals, [], 0)
    else
      Series([], vals, [], |vals|)
  }

  /** Keeps only the newest `maxLen` points of a series whose usable length
      exceeds `maxLen`. */
  function Truncate(s: Series, maxLen: int): (r: Series)
    requires maxLen >= 0
    requires s.n == 0 || s.n == |s.vals|
    ensures r.categories == s.categories && r.testVals == s.testVals
    ensures s.n > maxLen ==>
      r.n == |r.vals| == maxLen && exists dropped :: s.vals == dropped + r.vals
    ensures s.n <= maxLen ==> r == s
  {
    if s.n > maxLen then
      assert s.vals == s.vals[..s.n - maxLen] + s.vals[s.n - maxLen..];
      s.(vals := s.vals[s.n - maxLen..], n := maxLen)
    else s
  }

  /** The record built from a category name and the observation fields of a line. */
  function MakeSeries(category: string, fields: seq<string>, lback: int, maxLen: int,
                      toNumber: string -> real): (r: Result<Series>)
    requires maxLen >= 0
    ensures r.Failure? <==> ParseCategory(category).Failure?
    ensures r.Success? ==>
      && r.value.categories == OneHot(ParseCategory(category).value)
      && 0 <= r.value.n <= maxLen
      && (r.value.n == 0 || r.value.n == |r.value.vals|)
      && |r.value.vals| <= |ParseValues(fields, toNumber)|
  {
    match ParseCategory(category)
    case Failure(e) => Failure(e)
    case Success(c) =>
      var held := Holdback(ParseValues(fields, toNumber), lback);
      Success(Truncate(held.(categories := OneHot(c)), maxLen))
  }

  /** Backtesting scenario: 200 points, horizon 14, depth 1 leave 14 test
      points and 186 usable points. */
  lemma HoldbackScenario(vals: seq<real>)
    requires |vals| == 200
    ensures Holdback(vals, 1).testVals == vals[186..]
    ensures Holdback(vals, 1).n == 186
    ensures Holdback(vals, 1).vals == vals[..186]
  {
  }

  /** Punctuation in the C locale: the printable ASCII characters that are
      neither letters, digits nor space. */
  predicate IsPunct(c: char)
  {
    ('!' <= c <= '/') || (':' <= c <= '@') || ('[' <= c <= '`') || ('{' <= c <= '~')
  }

  /** The series identifier with punctuation removed. */
  function StripPunct(id: string): (r: string)
    ensures forall i :: 0 <= i < |r| ==> !IsPunct(r[i])
    ensures forall c {:trigger multiset(r)[c]} :: !IsPunct(c) ==> multiset(r)[c] == multiset(id)[c]
  {
    Filter(id, c => !IsPunct(c))
  }

  /** Identifier of a line: its first comma-separated field, punctuation removed. */
  function LineId(line: string): string
  {
    StripPunct(Split(line, ',')[0])
  }

  /** Category recorded for an id; a missing id reads as the empty name. */
  function CategoryOf(categories: map<string, string>, id: string): string
  {
    if id in categories then categories[id] else ""
  }

  /** The record built from one input line. */
  function LineSeries(line: string, categories: map<string, string>, lback: int, maxLen: int,
                      toNumber: string -> real): Result<Series>
    requires maxLen >= 0
  {
    MakeSeries(CategoryOf(categories, LineId(line)), Split(line, ',')[1..], lback, maxLen, toNumber)
  }

  /** The store after offering series `s` under `id`: kept only when its usable
      length reaches MIN_SERIES_LENGTH. */
  function Admit(acc: Loaded, id: string, s: Series): Loaded
  {
    if s.n >= MIN_SERIES_LENGTH then Loaded(acc.ids + [id], acc.store[id := s]) else acc
  }

  /** The load loop from the current position, with `acc` the series kept so far. */
  function LoadFrom(lines: seq<string>, acc: Loaded, categories: map<string, string>,
                    lback: int, maxLen: int, maxCount: int, toNumber: string -> real): Result<Loaded>
    requires maxLen >= 0
    decreases |lines|
  {
    if lines == [] then Success(acc)
    else
      match LineSeries(lines[0], categories, lback, maxLen, toNumber)
      case Failure(e) => Failure(e)
      case Success(s) =>
        var acc' := Admit(acc, LineId(lines[0]), s);
        if maxCount > 0 && |acc'.ids| >= maxCount then Success(acc')
        else LoadFrom(lines[1..], acc', categories, lback, maxLen, maxCount, toNumber)
  }

  /** Loads the series lines (header already skipped): keeps every series
      whose usable length reaches MIN_SERIES_LENGTH, in file order, and stops
      once `maxCount` series are kept when `maxCount` is positive. */
  function LoadSeries(lines: seq<string>, categories: map<string, string>, lback: int, maxLen: int,
                      maxCount: int, toNumber: string -> real): Result<Loaded>
    requires maxLen >= 0
  {
    LoadFrom(lines, Loaded([], map[]), categories, lback, maxLen, maxCount, toNumber)
  }

  /** The line's id has a recognised category. */
  predicate Known(line: string, categories: map<string, string>)
  {
    ParseCategory(CategoryOf(categories, LineId(line))).Success?
  }

  /** Every line has a recognised category. */
  predicate AllCategoriesKnown(lines: seq<string>, categories: map<string, string>)
  {
    forall k :: 0 <= k < |lines| ==> Known(lines[k], categories)
  }

  /** Reference definition: the (id, series) pairs of the lines long enough
      to keep, in file order. */
  function QualifyingEntries(lines: seq<string>, categories: map<string, string>, lback: int, maxLen: int,
                             toNumber: string -> real): seq<(string, Series)>
    requires maxLen >= 0
    requires AllCategoriesKnown(lines, categories)
  {
    if lines == [] then []
    else
      assert Known(lines[0], categories);
      var s := LineSeries(lines[0], categories, lback, maxLen, toNumber).value;
      (if s.n >= MIN_SERIES_LENGTH then [(LineId(lines[0]), s)] else [])
        + QualifyingEntries(lines[1..], categories, lback, maxLen, toNumber)
  }

  /** The ids of a list of entries, in order. */
  function Keys(e: seq<(string, Series)>): (r: seq<string>)
    ensures |r| == |e| && forall k :: 0 <= k < |e| ==> r[k] == e[k].0
    decreases |e|
  {
    if e == [] then [] else [e[0].0] + Keys(e[1..])
  }

  /** Reference definition of the store: start from `m` and write the
      entries one after the other, a later entry replacing an earlier one
      with the same id. */
  function Stored(m: map<string, Series>, e: seq<(string, Series)>): map<string, Series>
    decreases |e|
  {
    if e == [] then m else Stored(m[e[0].0 := e[0].1], e[1..])
  }

  /** The id of an entry that no later entry repeats maps to that entry's series. */
  lemma {:induction false} StoredLastWins(m: map<string, Series>, e: seq<(string, Series)>, k: int)
    requires 0 <= k < |e|
    requires forall j :: k < j < |e| ==> e[j].0 != e[k].0
    ensures e[k].0 in Stored(m, e) && Stored(m, e)[e[k].0] == e[k].1
    decreases |e|
  {
    if k == 0 {
      StoredUntouched(m[e[0].0 := e[0].1], e[1..], e[0].0);
    } else {
      StoredLastWins(m[e[0].0 := e[0].1], e[1..], k - 1);
    }
  }

  /** An id no entry mentions keeps its entry of `m`, or stays absent. */
  lemma {:induction false} StoredUntouched(m: map<string, Series>, e: seq<(string, Series)>, id: string)
    requires forall j :: 0 <= j < |e| ==> e[j].0 != id
    ensures id in Stored(m, e) <==> id in m
    ensures id in m ==> Stored(m, e)[id] == m[id]
    decreases |e|
  {
    if e != [] {
      StoredUntouched(m[e[0].0 := e[0].1], e[1..], id);
    }
  }

  /** The first `count` elements, or all of them when `count` is not positive or too large. */
  function Take<T>(xs: seq<T>, count: int): (r: seq<T>)
    ensures count <= 0 || count >= |xs| ==> r == xs
    ensures 0 < count < |xs| ==> r == xs[..count]
  {
    if count <= 0 || count >= |xs| then xs else xs[..count]
  }

  lemma TakeFirst<T>(x: T, xs: seq<T>)
    ensures Take([x] + xs, 1) == [x]
  {
    if 1 < |[x] + xs| {
      assert ([x] + xs)[..1] == [x];
    }
  }

  lemma TakeCons<T>(x: T, xs: seq<T>, count: int)
    requires count > 1
    ensures Take([x] + xs, count) == [x] + Take(xs, count - 1)
  {
    if count - 1 < |xs| {
      assert ([x] + xs)[..count] == [x] + xs[..count - 1];
    }
  }

  /** Store invariant: the store holds exactly the kept ids, all long enough. */
  ghost predicate WellStored(l: Loaded)
  {
    && (forall id :: id in l.store <==> id in l.ids)
    && (forall id :: id in l.store ==> l.store[id].n >= MIN_SERIES_LENGTH)
  }

  lemma AdmitWellStored(acc: Loaded, id: string, s: Series)
    requires WellStored(acc)
    ensures WellStored(Admit(acc, id, s))
  {
  }

  lemma AllKnownTail(lines: seq<string>, categories: map<string, string>)
    requires lines != [] && AllCategoriesKnown(lines, categories)
    ensures Known(lines[0], categories) && AllCategoriesKnown(lines[1..], categories)
  {
    assert forall k :: 0 <= k < |lines[1..]| ==> lines[1..][k] == lines[k + 1];
  }

  /** One qualifying entry at the head: its id leads the keys and its write
      comes first. */
  lemma EntryCons(x: (string, Series), e: seq<(string, Series)>, m: map<string, Series>)
    ensures Keys([x] + e) == [x.0] + Keys(e)
    ensures Stored(m, [x] + e) == Stored(m[x.0 := x.1], e)
  {
    var xe := [x] + e;
    assert xe != [] && xe[0] == x && xe[1..] == e;
  }

  lemma {:induction false} LoadFromSpec(lines: seq<string>, acc: Loaded, categories: map<string, string>,
                                        lback: int, maxLen: int, maxCount: int, toNumber: string -> real)
    requires maxLen >= 0
    requires AllCategoriesKnown(lines, categories)
    requires maxCount <= 0 || |acc.ids| < maxCount
    requires WellStored(acc)
    ensures LoadFrom(lines, acc, categories, lback, maxLen, maxCount, toNumber).Success?
    ensures var l := LoadFrom(lines, acc, categories, lback, maxLen, maxCount, toNumber).value;
      var kept := Take(QualifyingEntries(lines, categories, lback, maxLen, toNumber),
                       if maxCount <= 0 then 0 else maxCount - |acc.ids|);
      && l.ids == acc.ids + Keys(kept)
      && l.store == Stored(acc.store, kept)
      && WellStored(l)
    decreases |lines|
  {
    if lines == [] {
      assert Keys([]) == [];
    } else {
      AllKnownTail(lines, categories);
      var r := LineSeries(lines[0], categories, lback, maxLen, toNumber);
      assert r.Success?;
      var s := r.value;
      var id := LineId(lines[0]);
      var acc' := Admit(acc, id, s);
      AdmitWellStored(acc, id, s);
      var q' := QualifyingEntries(lines[1..], categories, lback, maxLen, toNumber);
      var q := QualifyingEntries(lines, categories, lback, maxLen, toNumber);
      assert q == (if s.n >= MIN_SERIES_LENGTH then [(id, s)] else []) + q';
      var count := if maxCount <= 0 then 0 else maxCount - |acc.ids|;
      if maxCount > 0 && |acc'.ids| >= maxCount {
        assert LoadFrom(lines, acc, categories, lback, maxLen, maxCount, toNumber) == Success(acc');
        assert s.n >= MIN_SERIES_LENGTH && count == 1;
        TakeFirst((id, s), q');
        EntryCons((id, s), [], acc.store);
        assert Take(q, count) == [(id, s)];
        assert Stored(acc.store, [(id, s)]) == acc'.store;
      } else {
        assert LoadFrom(lines, acc, categories, lback, maxLen, maxCount, toNumber)
          == LoadFrom(lines[1..], acc', categories, lback, maxLen, maxCount, toNumber);
        LoadFromSpec(lines[1..], acc', categories, lback, maxLen, maxCount, toNumber);
        var count' := if maxCount <= 0 then 0 else maxCount - |acc'.ids|;
        if s.n >= MIN_SERIES_LENGTH {
          assert acc'.ids == acc.ids + [id];
          assert q == [(id, s)] + q';
          if maxCount > 0 {
            assert count' == count - 1 && count > 1;
            TakeCons((id, s), q', count);
          } else {
            assert Take(q, count) == [(id, s)] + Take(q', count');
          }
          assert Take(q, count) == [(id, s)] + Take(q', count');
          EntryCons((id, s), Take(q', count'), acc.store);
          assert Stored(acc.store, Take(q, count)) == Stored(acc'.store, Take(q', count'));
          AppendAssoc(acc.ids, [id], Keys(Take(q', count')));
        } else {
          assert acc' == acc;
          assert q == q' && count' == count;
        }
      }
    }
  }

  /** Once the lines before position k hold enough qualifying series, the
      lines from k on are never read. */
  lemma {:induction false} LoadFromStopsAtCut(lines: seq<string>, k: nat, acc: Loaded,
                                              categories: map<string, string>, lback: int, maxLen: int,
                                              maxCount: int, toNumber: string -> real)
    requires maxLen >= 0 && k <= |lines|
    requires AllCategoriesKnown(lines[..k], categories)
    requires 0 <= |acc.ids| < maxCount
    requires |acc.ids| + |QualifyingEntries(lines[..k], categories, lback, maxLen, toNumber)| >= maxCount
    ensures LoadFrom(lines, acc, categories, lback, maxLen, maxCount, toNumber)
         == LoadFrom(lines[..k], acc, categories, lback, maxLen, maxCount, toNumber)
    decreases k
  {
    var pre := lines[..k];
    assert pre != [];
    AllKnownTail(pre, categories);
    assert pre[0] == lines[0];
    var s := LineSeries(lines[0], categories, lback, maxLen, toNumber).value;
    var acc' := Admit(acc, LineId(lines[0]), s);
    if |acc'.ids| < maxCount {
      assert pre[1..] == lines[1..][..k - 1];
      assert |QualifyingEntries(pre, categories, lback, maxLen, toNumber)|
          == (if s.n >= MIN_SERIES_LENGTH then 1 else 0)
             + |QualifyingEntries(pre[1..], categories, lback, maxLen, toNumber)|;
      LoadFromStopsAtCut(lines[1..], k - 1, acc', categories, lback, maxLen, maxCount, toNumber);
    }
  }

  /** Loading succeeds when every line read before the cut has a known
      category (k is the number of lines read: all of them, or a prefix
      already holding `maxCount` qualifying series).  It keeps exactly the
      first `maxCount` qualifying series of those lines in file order (all
      of them when `maxCount` is not positive), and stores under each kept
      id the series of the last kept line with that id. */
  lemma LoadSeriesKeepsQualifying(lines: seq<string>, k: nat, categories: map<string, string>, lback: int,
                                  maxLen: int, maxCount: int, toNumber: string -> real)
    requires maxLen >= 0 && k <= |lines|
    requires AllCategoriesKnown(lines[..k], categories)
    requires k == |lines|
          || (maxCount > 0 && |QualifyingEntries(lines[..k], categories, lback, maxLen, toNumber)| >= maxCount)
    ensures LoadSeries(lines, categories, lback, maxLen, maxCount, toNumber).Success?
    ensures var l := LoadSeries(lines, categories, lback, maxLen, maxCount, toNumber).value;
      var kept := Take(QualifyingEntries(lines[..k], categories, lback, maxLen, toNumber), maxCount);
      && l.ids == Keys(kept)
      && l.store == Stored(map[], kept)
      && WellStored(l)
      && (forall j :: 0 <= j < |kept| && (forall j' :: j < j' < |kept| ==> kept[j'].0 != kept[j].0) ==>
            kept[j].0 in l.store && l.store[kept[j].0] == kept[j].1)
  {
    var empty := Loaded([], map[]);
    if k < |lines| {
      LoadFromStopsAtCut(lines, k, empty, categories, lback, maxLen, maxCount, toNumber);
    } else {
      assert lines[..k] == lines;
    }
    LoadFromSpec(lines[..k], empty, categories, lback, maxLen, maxCount, toNumber);
    var kept := Take(QualifyingEntries(lines[..k], categories, lback, maxLen, toNumber), maxCount);
    forall j | 0 <= j < |kept| && (forall j' :: j < j' < |kept| ==> kept[j'].0 != kept[j].0)
      ensures kept[j].0 in Stored(map[], kept) && Stored(map[], kept)[kept[j].0] == kept[j].1
    {
      StoredLastWins(map[], kept, j);
    }
  }

  /** A known line in front of known lines gives known lines. */
  lemma AllKnownCons(lines: seq<string>, k: nat, categories: map<string, string>)
    requires k < |lines| && Known(lines[0], categories)
    requires AllCategoriesKnown(lines[1..][..k], categories)
    ensures AllCategoriesKnown(lines[..k + 1], categories)
  {
    var p := lines[..k + 1];
    forall i | 0 <= i < |p|
      ensures Known(p[i], categories)
    {
      if i > 0 {
        assert p[i] == lines[1..][..k][i - 1];
      }
    }
  }

  lemma {:induction false} LoadFromFailure(lines: seq<string>, acc: Loaded, categories: map<string, string>,
                                           lback: int, maxLen: int, maxCount: int, toNumber: string -> real)
    requires maxLen >= 0
    requires LoadFrom(lines, acc, categories, lback, maxLen, maxCount, toNumber).Failure?
    ensures exists k :: (0 <= k < |lines| &&
      LoadFrom(lines, acc, categories, lback, maxLen, maxCount, toNumber).error
        == UnknownCategory(CategoryOf(categories, LineId(lines[k])))
      && ParseCategory(CategoryOf(categories, LineId(lines[k]))).Failure?
      && AllCategoriesKnown(lines[..k], categories))
    decreases |lines|
  {
    var s := LineSeries(lines[0], categories, lback, maxLen, toNumber);
    if s.Failure? {
      assert s.error == UnknownCategory(CategoryOf(categories, LineId(lines[0])));
      assert AllCategoriesKnown(lines[..0], categories);
    } else {
      var acc' := Admit(acc, LineId(lines[0]), s.value);
      LoadFromFailure(lines[1..], acc', categories, lback, maxLen, maxCount, toNumber);
      var k :| 0 <= k < |lines[1..]| &&
        LoadFrom(lines[1..], acc', categories, lback, maxLen, maxCount, toNumber).error
          == UnknownCategory(CategoryOf(categories, LineId(lines[1..][k])))
        && ParseCategory(CategoryOf(categories, LineId(lines[1..][k]))).Failure?
        && AllCategoriesKnown(lines[1..][..k], categories);
      assert lines[1..][k] == lines[k + 1];
      AllKnownCons(lines, k, categories);
    }
  }

  /** A failed load names the unknown category of a line all of whose
      predecessors have known categories: the first unknown line. */
  lemma LoadSeriesFailure(lines: seq<string>, categories: map<string, string>, lback: int,
                          maxLen: int, maxCount: int, toNumber: string -> real)
    requires maxLen >= 0
    requires LoadSeries(lines, categories, lback, maxLen, maxCount, toNumber).Failure?
    ensures exists k :: (0 <= k < |lines| &&
      LoadSeries(lines, categories, lback, maxLen, maxCount, toNumber).error
        == UnknownCategory(CategoryOf(categories, LineId(lines[k])))
      && ParseCategory(CategoryOf(categories, LineId(lines[k]))).Failure?
      && AllCategoriesKnown(lines[..k], categories))
  {
    LoadFromFailure(lines, Loaded([], map[]), categories, lback, maxLen, maxCount, toNumber);
  }

  lemma {:induction false} LoadFromFailsAt(lines: seq<string>, j: nat, acc: Loaded,
                                           categories: map<string, string>, lback: int, maxLen: int,
                                           maxCount: int, toNumber: string -> real)
    requires maxLen >= 0 && j < |lines|
    requires !Known(lines[j], categories)
    requires AllCategoriesKnown(lines[..j], categories)
    requires maxCount <= 0
          || |acc.ids| + |QualifyingEntries(lines[..j], categories, lback, maxLen, toNumber)| < maxCount
    ensures LoadFrom(lines, acc, categories, lback, maxLen, maxCount, toNumber)
         == Failure(UnknownCategory(CategoryOf(categories, LineId(lines[j]))))
    decreases j
  {
    if j > 0 {
      var pre := lines[..j];
      AllKnownTail(pre, categories);
      assert pre[0] == lines[0];
      var s := LineSeries(lines[0], categories, lback, maxLen, toNumber).value;
      var acc' := Admit(acc, LineId(lines[0]), s);
      assert pre[1..] == lines[1..][..j - 1];
      assert |QualifyingEntries(pre, categories, lback, maxLen, toNumber)|
          == (if s.n >= MIN_SERIES_LENGTH then 1 else 0)
             + |QualifyingEntries(pre[1..], categories, lback, maxLen, toNumber)|;
      assert lines[1..][j - 1] == lines[j];
      LoadFromFailsAt(lines[1..], j - 1, acc', categories, lback, maxLen, maxCount, toNumber);
    }
  }

  /** The converse: a line with an unknown category, reached before the
      MaxSeriesCount cut with every earlier category known, makes the load
      fail with that line's category name.  With LoadSeriesKeepsQualifying
      this decides every file: it loads exactly when no unknown category
      occurs before the cut. */
  lemma LoadSeriesFailsAt(lines: seq<string>, j: nat, categories: map<string, string>, lback: int,
                          maxLen: int, maxCount: int, toNumber: string -> real)
    requires maxLen >= 0 && j < |lines|
    requires !Known(lines[j], categories)
    requires AllCategoriesKnown(lines[..j], categories)
    requires maxCount <= 0 || |QualifyingEntries(lines[..j], categories, lback, maxLen, toNumber)| < maxCount
    ensures LoadSeries(lines, categories, lback, maxLen, maxCount, toNumber).Failure?
    ensures LoadSeries(lines, categories, lback, maxLen, maxCount, toNumber).error
         == UnknownCategory(CategoryOf(categories, LineId(lines[j])))
  {
    LoadFromFailsAt(lines, j, Loaded([], map[]), categories, lback, maxLen, maxCount, toNumber);
  }
}

=== FILE: text.dfy ===
/** Character-level helpers used while reading series records: filtering
    characters out of a field and splitting a record on a delimiter. */
module Text {

  /** The characters of `s` that satisfy `keep`, in their original order:
      every kept character occurs in `r` exactly as often as in `s`, no other
      character occurs, and order is preserved (see FilterAppend). */
  function Filter(s: string, keep: char -> bool): (r: string)
    ensures |r| <= |s|
    ensures forall i :: 0 <= i < |r| ==> keep(r[i])
    ensures forall c :: c in r ==> c in s
    ensures forall c {:trigger multiset(r)[c]} :: keep(c) ==> multiset(r)[c] == multiset(s)[c]
  {
    if s == [] then []
    else
      assert s == [s[0]] + s[1..];
      (if keep(s[0]) then [s[0]] else []) + Filter(s[1..], keep)
  }

  /** Filtering distributes over concatenation. */
  lemma {:induction false} FilterAppend(a: string, b: string, keep: char -> bool)
    ensures Filter(a + b, keep) == Filter(a, keep) + Filter(b, keep)
  {
    if a == [] {
      assert a + b == b;
    } else {
      assert (a + b)[0] == a[0];
      assert (a + b)[1..] == a[1..] + b;
      FilterAppend(a[1..], b, keep);
    }
  }

  /** A string whose characters are all kept is left as it is. */
  lemma {:induction false} FilterKeepsAll(s: string, keep: char -> bool)
    requires forall i :: 0 <= i < |s| ==> keep(s[i])
    ensures Filter(s, keep) == s
  {
    if s != [] {
      FilterKeepsAll(s[1..], keep);
    }
  }

  /** Filtering twice with the same test is the same as filtering once. */
  lemma FilterIdempotent(s: string, keep: char -> bool)
    ensures Filter(Filter(s, keep), keep) == Filter(s, keep)
  {
    FilterKeepsAll(Filter(s, keep), keep);
  }

  /** Splits `s` at every occurrence of `d`; n delimiters give n + 1 pieces. */
  function Split(s: string, d: char): (r: seq<string>)
    ensures |r| >= 1
    ensures forall k :: 0 <= k < |r| ==> d !in r[k]
  {
    if s == [] then [""]
    else if s[0] == d then [""] + Split(s[1..], d)
    else
      var t := Split(s[1..], d);
      [[s[0]] + t[0]] + t[1..]
  }

  /** Glues pieces back together with `d` between consecutive pieces. */
  function Join(parts: seq<string>, d: char): string
    requires |parts| >= 1
  {
    if |parts| == 1 then parts[0] else parts[0] + [d] + Join(parts[1..], d)
  }

  /** Splitting loses nothing: joining the pieces gives the record back. */
  lemma {:induction false} JoinSplit(s: string, d: char)
    ensures Join(Split(s, d), d) == s
  {
    if s == [] {
    } else if s[0] == d {
      JoinSplit(s[1..], d);
      assert Split(s, d)[1..] == Split(s[1..], d);
      assert s == [d] + s[1..];
    } else {
      var t := Split(s[1..], d);
      JoinSplit(s[1..], d);
      var r := Split(s, d);
      assert r[0] == [s[0]] + t[0];
      if |t| == 1 {
        assert Join(r, d) == [s[0]] + t[0];
      } else {
        assert r[1..] == t[1..];
        assert Join(r, d) == ([s[0]] + t[0]) + [d] + Join(t[1..], d);
        assert Join(t, d) == t[0] + [d] + Join(t[1..], d);
        assert Join(r, d) == [s[0]] + Join(t, d);
      }
      assert s == [s[0]] + s[1..];
    }
  }

  /** A piece free of the delimiter, followed by the delimiter, splits off as one piece. */
  lemma {:induction false} SplitPiece(p: string, d: char, s: string)
    requires d !in p
    ensures Split(p + [d] + s, d) == [p] + Split(s, d)
  {
    if p == [] {
      assert p + [d] + s == [d] + s;
      assert ([d] + s)[1..] == s;
    } else {
      assert (p + [d] + s)[0] == p[0];
      assert (p + [d] + s)[1..] == p[1..] + [d] + s;
      SplitPiece(p[1..], d, s);
      assert [p[0]] + p[1..] == p;
    }
  }

  /** A delimiter-free string is a single piece. */
  lemma {:induction false} SplitNoDelimiter(p: string, d: char)
    requires d !in p
    ensures Split(p, d) == [p]
  {
    if p != [] {
      SplitNoDelimiter(p[1..], d);
      assert [p[0]] + p[1..] == p;
    }
  }

  /** Joining delimiter-free pieces and splitting again gives the same pieces. */
  lemma {:induction false} SplitJoin(parts: seq<string>, d: char)
    requires |parts| >= 1
    requires forall k :: 0 <= k < |parts| ==> d !in parts[k]
    ensures Split(Join(parts, d), d) == parts
  {
    if |parts| == 1 {
      SplitNoDelimiter(parts[0], d);
    } else {
      SplitJoin(parts[1..], d);
      SplitPiece(parts[0], d, Join(parts[1..], d));
      assert [parts[0]] + parts[1..] == parts;
    }
  }

  /** Concatenation regroups; stated once so that proofs can cite it instead
      of rediscovering it. */
  lemma AppendAssoc<T>(a: seq<T>, b: seq<T>, c: seq<T>)
    ensures (a + b) + c == a + (b + c)
  {
  }
}
